=== FILE: README.md ===
# react-hcaptcha widget lifecycle, modelled in Dafny

This project models the core of the `HCaptcha` React component in
`src/index.js`. The core has two parts:

- **The page-wide script loader.** `mountCaptchaScript` and the module-level
  promise make sure the hCaptcha API script is inserted at most once per
  page. Every caller gets the same promise back, and that promise settles
  once.
- **The per-instance controller.** This is the `HCaptcha` class. Its state is
  `{isApiReady, isRemoved, captchaId, apiScriptRequested}`. The `isReady` gate
  (`isApiReady && !isRemoved`) guards reset, remove, execute, setData, unmount
  and the expire, error, open, close and challenge-expired handlers. The
  verify handler, `getResponse` and `getRespKey` are not guarded by it.

The style is functional. The page, the component and the external engine are
immutable records. Every method of the component is a pure transition that
returns the new component state and the new environment. The environment
holds a trace of engine calls and user callbacks, in order.

## Files and modules

| file | module | contents |
|---|---|---|
| wrappers.dfy | `Wrappers` | `Option` |
| js_values.dfy | `JsValues` | JavaScript values, truthiness, `a \|\| b`, the argument guard of `execute`/`setData` |
| config.dfy | `Config` | the props the core reads, the watch-list, the render options |
| external_api.dfy | `ExternalApi` | an abstract `hcaptcha` engine: ids map to live widgets; `render` returns a fresh id |
| script_loader.dfy | `ScriptLoader` | the page (element ids, appended scripts, onload slot, API presence, the shared promise and its waiters), `mountCaptchaScript`, the script URL, settle-once |
| controller.dfy | `Controller` | every `HCaptcha` method as a transition over `Step(comp, env)` |
| lifecycle.dfy | `Lifecycle` | a controller driven through arbitrary action sequences; the invariants and guard rules |
| shared_load.dfy | `SharedLoad` | many controllers on one page; fan-out of the settled promise to their continuations |

### How the model treats the environment

- **The document.** It is a set of element ids plus the list of scripts the
  loader appended. The window is two flags: the loader has captured it, and
  `window.hcaptcha` is defined.
- **The promise.** It is a `Signal`: `Pending`, `Resolved` or `Rejected`.
  `Settle` changes only a pending signal. The `.then(handleOnLoad).catch(handleError)`
  continuations are a list of controller keys, `Page.waiters`.
  `SharedLoad.RunContinuations` runs them once the signal is settled.
- **The environment's own events.** The script loading (`ScriptLoaded`) and
  the script failing (`ScriptFailed`) are transitions of the page.
- **`setState`.** Each `setState` callback runs right after its state update.
- **`generateQuery`.** It is an opaque function parameter,
  `gen: QueryParams -> string`. `QueryParams` has no `apihost`, `loadAsync` or
  `scriptLocation` field, because the loader deletes those three before it
  serialises the rest.
- **`ExternalApi`.** This module abstracts the third-party engine, which is
  not part of the source. So it has no rows of its own in the table below.
  A user solving a challenge is `ExternalApi.Solve`: the engine stores the
  new token and session key, then calls the verify callback
  (`Lifecycle.Solved`).
- **`getResponse` and `getRespKey`.** They dereference
  `scriptContainerWindow.hcaptcha` without a guard, so they throw when the
  window was never captured or the API is undefined. The model returns `None`
  for a throw.

### Behaviour of the code worth knowing

- **Nothing in the component cancels a pending render on unmount.**
  `componentWillUnmount` does nothing to a controller that is not ready, and
  `handleOnLoad` has no unmount check of its own.
  `Lifecycle.UnmountDoesNotCancelPendingRender` states this, under the
  immediate-`setState` rule described above; see "Left out" for what React
  itself does.
- **Unmount keeps the ready flag.** `componentWillUnmount` resets and removes
  the widget in the engine but never sets `isRemoved`.
  `Lifecycle.UnmountKeepsReadyFlag` states this.
- **The site key is not in the script URL.** The loader's parameters
  (src/index.js:143-170) never include `sitekey`.
- **No `onLoad` when the API was already loaded.** If the API is present when
  the component is constructed, `componentDidMount` renders without any
  `onReady` continuation, so `onLoad` is never called.
  `Lifecycle.MountWhenLoadedSkipsOnLoad` states this.
- **The verify handler uses a weaker guard.** `handleSubmit` checks only that
  `window.hcaptcha` is defined and that the widget is not removed. It does not
  check `isReady`. `Lifecycle.SubmitNeedsOnlyApiPresence` states this.

## Model

| member | source | states |
|---|---|---|
| `JsValues.Or` | src/index.js:190 | `hl \|\| languageOverride` yields one of its operands; the result is truthy iff either operand is; a truthy first operand wins, and a falsy one yields the second operand |
| `JsValues.ShapeGuard` | src/index.js:310-312 | a truthy non-object argument becomes null; objects and falsy values pass unchanged (both directions); the result is always falsy or an object |
| `JsValues.ShapeGuardIdempotent` | src/index.js:324-326 | guarding an already guarded argument changes nothing |
| `Config.RenderParams` | src/index.js:182-192 | render receives every prop unchanged, except that `hl` is `hl` when truthy and otherwise `languageOverride`, and `languageOverride` is cleared |
| `ScriptLoader.Settle` | src/index.js:11-14 | the shared promise changes only while pending; a settled promise keeps its outcome |
| `ScriptLoader.SettledStays` | src/index.js:11-14 | any series of later resolve/reject attempts leaves a settled promise as it is |
| `ScriptLoader.FirstSettlementWins` | src/index.js:11-14 | across any series of settle attempts, the promise ends with the first outcome: it is settled at most once |
| `ScriptLoader.ApiDomain` | src/index.js:33 | the origin is `apihost` when that is a non-empty string, otherwise `https://js.hcaptcha.com` |
| `ScriptLoader.ScriptSrc` | src/index.js:38-46 | the URL starts with origin + `/1/api.js?render=explicit&onload=hcaptchaOnLoad`; it equals that prefix iff the query is empty; otherwise the rest is `&` + query |
| `ScriptLoader.ScriptSrcRoundTrip` | src/index.js:38-46 | the serialised query can be read back from the script URL, so different queries give different URLs |
| `ScriptLoader.DefaultScriptUrl` | src/index.js:33-38 | with no host and no parameters, the URL is exactly `https://js.hcaptcha.com/1/api.js?render=explicit&onload=hcaptchaOnLoad` |
| `ScriptLoader.CustomHostScriptUrl` | src/index.js:33-38 | with `apihost` `https://example.test`, the URL starts with `https://example.test/1/api.js?render=explicit&onload=` |
| `ScriptLoader.AsyncFlag` | src/index.js:40 | the script is async iff `loadAsync` is undefined or truthy |
| `ScriptLoader.ParentOf` | src/index.js:18 | the script goes to the document head exactly when no `scriptLocation` is given, and otherwise to that location |
| `ScriptLoader.MountScript` | src/index.js:17-50 | it always captures the window and returns the same, unsettled-by-it promise; it appends exactly one script, with the well-known id, and registers the onload callback iff no element with that id existed; otherwise the document is untouched; it keeps the loader invariant |
| `ScriptLoader.MountIdempotent` | src/index.js:25-28 | a second request on the same page returns the same promise and changes nothing |
| `ScriptLoader.MountAllSingleFlight` | src/index.js:25-49 | after any number of requests there is at most one script, built from the first request's parameters, or none if the id was taken beforehand; the promise and its waiters are untouched |
| `ScriptLoader.ScriptLoaded` | src/index.js:31 | when a script was appended and it runs, the API becomes present and the registered onload resolves a pending promise; without a registered onload the promise is untouched; a settled promise stays settled; scripts, ids, waiters, the captured window and the onload registration are kept; with no script appended the page is unchanged |
| `ScriptLoader.ScriptFailed` | src/index.js:43 | when a script was appended, its error rejects a pending promise with `script-error`; a settled promise stays settled; scripts, ids, waiters, API presence, the captured window and the onload registration are kept; with no script appended the page is unchanged |
| `Controller.Construct` | src/index.js:73-83 | a new component is not removed, has no id and has not requested the script; it counts as API-ready iff the window was captured and `hcaptcha` is defined |
| `Controller.IsReady` | src/index.js:273-277 | the gate: the API is known loaded and the widget is not removed |
| `Controller.MountParamsOf` | src/index.js:143-170 | the loader gets the host, async and location props; the query carries `assethost`, `endpoint`, `host`, `imghost`, `reportapi`, `sentry` and `custom` unchanged and `hl` is `languageOverride`; `recaptchacompat` is `"off"` iff `reCaptchaCompat` is false, otherwise null |
| `Controller.RenderCaptcha` | src/index.js:178-200 | a no-op unless `isApiReady`; otherwise the engine is exactly the old one plus one fresh, live widget with the render options, whose id is stored; `isRemoved` is cleared and the controller becomes ready; the trace gains the render call and then `onLoad` iff requested and supplied |
| `Controller.ResetCaptcha` | src/index.js:202-210 | when not ready, nothing changes; when ready, exactly one reset of the current id is issued; the component state is unchanged |
| `Controller.RemoveCaptcha` | src/index.js:212-223 | when not ready, nothing happens, the callback included; otherwise the remove of the old id comes first and kills that id, then the callback or re-render runs; a re-render leaves exactly the old engine minus the old widget plus one fresh one, and a ready component with the new id |
| `Controller.LoadCaptcha` | src/index.js:138-176 | the first call mounts the script once and attaches this controller to the promise; later calls change nothing; no engine call is made and the promise is not settled |
| `Controller.ComponentDidMount` | src/index.js:86-101 | if the API was ready at construction, the component becomes exactly `c` with `isRemoved` false and the engine's next id, the trace gains exactly that one render call (no `onLoad`), and the engine gains that one widget; otherwise it makes no engine call: a component that already requested the script changes nothing at all, and a first request mounts the script (the id is then taken) and attaches itself as a waiter |
| `Controller.ComponentWillUnmount` | src/index.js:103-113 | when not ready, nothing changes; when ready, it issues reset then remove on the current id, the engine is exactly the reset-then-remove of that id (the widget is gone, the others and the next id are kept), and the component state is kept |
| `Controller.ComponentDidUpdate` | src/index.js:124-136 | with the watched props equal, or a controller that is not ready, nothing happens; otherwise remove(old id) then render(new props): the engine loses exactly the old widget and gains exactly one new, live one |
| `Controller.HandleOnLoad` | src/index.js:225-235 | the controller becomes API-ready and renders the engine's next id, the engine gaining exactly that widget; the trace gains render and then, if supplied, `onLoad` |
| `Controller.HandleSubmit` | src/index.js:237-246 | a no-op if the API is absent or the widget removed; otherwise it reads the token and session key of the current id and forwards exactly those to `onVerify`, if supplied |
| `Controller.HandleExpire` | src/index.js:248-259 | a no-op when not ready; otherwise it resets the current widget and then calls `onExpire`, if supplied |
| `Controller.HandleError` | src/index.js:261-271 | it resets only when ready, but always forwards the event to `onError` when supplied |
| `Controller.HandleOpen` | src/index.js:279-285 | `onOpen` runs iff ready and supplied; nothing else changes |
| `Controller.HandleClose` | src/index.js:287-293 | `onClose` runs iff ready and supplied; nothing else changes |
| `Controller.HandleChallengeExpired` | src/index.js:295-301 | `onChalExpired` runs iff ready and supplied; nothing else changes |
| `Controller.Execute` | src/index.js:303-315 | not ready: returns undefined, with no call; ready: forwards to the current id, with an absent argument becoming null and a truthy non-object becoming null |
| `Controller.SetDataCaptcha` | src/index.js:317-329 | not ready: nothing; ready: the guarded data is forwarded to and recorded on the current widget; undefined stays undefined |
| `Controller.GetResponse` | src/index.js:331-333 | throws (nothing changes) iff the window was not captured or `hcaptcha` is undefined; otherwise a read guarded by neither `isReady` nor `isRemoved`: the live widget's token, or empty for an unknown id |
| `Controller.GetRespKey` | src/index.js:335-337 | throws (nothing changes) iff the window was not captured or `hcaptcha` is undefined; otherwise a read guarded by neither `isReady` nor `isRemoved`: the live widget's session key, or empty for an unknown id |
| `Lifecycle.ConstructEstablishesInv` | src/index.js:73-83 | a new controller satisfies the lifecycle invariant in any engine that only holds ids it handed out |
| `Lifecycle.ApplyPreservesInv` | src/index.js:178-223 | every host or engine event keeps the id handed out and alive while ready, never rewrites the trace, and never clears the script-requested flag |
| `Lifecycle.ApplyAllPreservesInv` | src/index.js:178-235 | the same invariant holds after any sequence of events, and the trace only grows |
| `Lifecycle.ApplyRequestsOnce` | src/index.js:138-141 | one event either leaves the page alone or performs the single script request of a controller that had not made it |
| `Lifecycle.ApplyAllRequestsOnce` | src/index.js:138-176 | over any run, a controller attaches itself to the promise at most once, never settles it, and keeps the loader invariant |
| `Lifecycle.ReadyGatesEngineCalls` | src/index.js:273-277 | reset, remove, execute, setData, unmount and the expire handler reach the engine iff `isReady`; when not ready these and the open, close and challenge-expired handlers change nothing, and the error handler leaves the engine alone |
| `Lifecycle.ExecuteAndSetDataCoerce` | src/index.js:303-329 | objects pass through unchanged; truthy non-objects become null; undefined becomes null for execute and stays undefined for setData |
| `Lifecycle.OnLoadSeesRenderedWidget` | src/index.js:225-234 | after the load continuation, an execute issued from `onLoad` reaches the widget that was just rendered |
| `Lifecycle.UnwatchedChangeKeepsWidget` | src/index.js:124-136 | a change of `hl`, `apihost` or `onVerify` alone never removes or re-renders |
| `Lifecycle.WatchedChangeRecreates` | src/index.js:124-136 | a change of a watched prop on a ready widget adds exactly remove(old id) then render(new props), giving a different, live id |
| `Lifecycle.UnmountDoesNotCancelPendingRender` | src/index.js:225-234 | unmounting a controller that is waiting for the script changes nothing, and a later resolution still renders a widget |
| `Lifecycle.UnmountKeepsReadyFlag` | src/index.js:103-113 | after unmount the widget is dead in the engine, but the component still counts as ready |
| `Lifecycle.SubmitNeedsOnlyApiPresence` | src/index.js:241 | a controller that is not ready still forwards a verify event when the API is present |
| `Lifecycle.ExpireClearsForwardedToken` | src/index.js:248-259 | after an expiry, a verify forwards an empty token and session key |
| `Lifecycle.SolvedDeliversToken` | src/index.js:237-246 | when the user solves the challenge of a ready widget, the trace gains the two reads of the current id and `onVerify` with exactly the stored token and key |
| `Lifecycle.SolvedThenRead` | src/index.js:331-337 | after a solved challenge, `getResponse` and `getRespKey` return the stored token and key; after a reset, both return empty |
| `Lifecycle.MountWhenLoadedSkipsOnLoad` | src/index.js:86-98 | a widget mounted after the API has loaded adds exactly one render call and holds the new, live id, but `onLoad` is never called |
| `SharedLoad.DeliverOne` | src/index.js:172-174 | one continuation: success turns the controller into `ReadyWith` its props and the engine's next id, renders exactly its widget, and adds exactly the render call and `onLoad` when supplied; failure leaves the controller as it was, leaves the engine exactly as it was or, when the controller is ready, exactly as `Reset` of its own widget makes it, and adds that reset call and `onError` when supplied; the trace only grows; the engine keeps its widgets and gains at most the next id; no other controller changes |
| `SharedLoad.DeliverAll` | src/index.js:172-174 | running the continuations keeps the page and the controller keys, leaves controllers that were not waiting unchanged, only appends to the trace, and lets the engine keep all its widgets and gain only ids from its next id up to one per waiter |
| `SharedLoad.RunContinuations` | src/index.js:172-174 | nothing runs while the promise is pending; once it is settled the waiters empty, only waiting controllers change and the trace only grows; the engine keeps every widget id it had and gains only ids from its next id up to one per waiter; on success the waiters are released in order (`AllReleased`: each waiter's exact controller, its widget rendered from its props under its own id, earlier widgets kept, and the trace grown by exactly `LoadCallbacks`) and each is ready and live; on failure, waiters that were not API-ready leave controllers and engine unchanged and the trace gains exactly `ErrorCallbacks` |
| `SharedLoad.DeliverOneResolved` | src/index.js:172-173 | one success continuation is `AllReleased` for one waiter: the controller is `ReadyWith` the next id, that widget is rendered from its props, the trace gains exactly its render and `onLoad` calls, and no other controller or earlier widget changes |
| `SharedLoad.ResolvedFanOut` | src/index.js:172-173 | on success, the i-th waiting controller becomes `ReadyWith` the i-th fresh id, the engine holds under that id a fresh widget rendered from its props, earlier widgets are kept, exactly one id is issued per waiter, the trace gains exactly `LoadCallbacks` (each waiter's render then its `onLoad`, in order), and non-waiters are unchanged |
| `SharedLoad.ResolvedIdsDistinct` | src/index.js:172-173 | controllers released by one load hold pairwise different ids |
| `SharedLoad.LoadCallbacksRender` | src/index.js:172-173 | the calls of a successful load contain, for every waiter i, the render of id `next + i` with that waiter's own parameters, and are at least as many as the waiters |
| `SharedLoad.LoadCallbacksFrame` | src/index.js:172-173 | the calls of a successful load depend on the controllers only through their props |
| `SharedLoad.RejectedFanOut` | src/index.js:172-174 | on failure, no waiting controller changes or calls the engine; the only effect is one `onError` per waiter that supplied it |
| `SharedLoad.DeliverOneRejected` | src/index.js:172-174 | one failure continuation of a controller that is not API-ready changes no controller, page or engine, and adds only its `onError(script-error)`, if supplied |
| `SharedLoad.ErrorCallbacksOnlyErrors` | src/index.js:261-271 | a failed load produces only `onError(script-error)` calls, at most one per waiter |
| `SharedLoad.TwoWidgetsShareOneScript` | src/index.js:17-50 | two widgets mounted before load share one script, built from the first one's props; after load both are ready with different, live ids |
| `SharedLoad.MountOneWaits` | src/index.js:86-101 | mounting one controller that has not requested the script attaches it to the promise and makes at most one script request |
| `SharedLoad.MountAllWaits` | src/index.js:138-176 | mounting any number of such controllers attaches each one, in order, appends at most one script built from the first one's props, and touches neither the engine, the trace nor the promise |
| `SharedLoad.ManyWaiting` | src/index.js:17-50 | mounting every controller of a fresh page appends exactly one script, built from the first controller's props, leaves the promise pending with every controller attached in order, leaves the engine empty and the trace empty, so no engine call is made |
| `SharedLoad.ManyWidgetsShareOneScript` | src/index.js:17-50 | any number of widgets mounted on a fresh page before load share one script and one promise; after load the i-th is ready with id i and a live widget |
| `SharedLoad.TwoWidgetsLoadFailure` | src/index.js:43 | if the script fails, neither of two waiting widgets renders, and each `onError` fires exactly once |

## Left out

- React machinery is not modelled: `setState` batching, `shouldComponentUpdate`, refs, the JSX `render`, and the `elementId` state that only feeds it. A `setState` callback runs immediately after its update.
- The real DOM is one document, and only element ids are modelled. A `scriptLocation` in another document (`ownerDocument`, `defaultView`) is not modelled. `scriptLocation` is a container name.
- `generateQuery` is not part of this model. The serialised query is an opaque function of the remaining parameters.
- The event loop is not modelled. Continuations run when `SharedLoad.RunContinuations` is applied. A `.catch` of an exception thrown inside `handleOnLoad` is not modelled, because the abstract engine never throws.
- The hCaptcha engine is abstract. Rendering, challenges and token issuing are not modelled. Calls on an unknown id are no-ops, where the real engine may throw.
- `Controller.Execute` does not model the awaitable the engine returns. The result records only whether the call was forwarded, and with which argument.
- `Controller.RemoveCaptcha`: a caller-supplied callback is opaque and appears as one `OnRemoved` event; the re-render callback of `componentDidUpdate` is modelled exactly.
- `Lifecycle.UnmountDoesNotCancelPendingRender`: holds under the immediate-`setState` rule only. React itself drops a `setState` on an unmounted component, so its callback, and with it the late render, would not run there; React's handling of unmounted components is not modelled.
- `Controller.HandleSubmit`: the `TypeError` thrown when the window was never captured is not modelled. The guard reads only whether the API is present.
- Only string `apihost` values are modelled. NaN and -0 are outside the value model, so `===` coincides with datatype equality.
- Unmounting is not in the `Lifecycle.Action` alphabet, because it ends a component's life. It is stated on its own in `Controller.ComponentWillUnmount` and the unmount lemmas.

=== FILE: config.dfy ===
/** The component's props as far as the core reads them. */
module Config {
  import opened Wrappers
  import opened JsValues

  /** The props of one widget component. The first six fields are the
      watch-list of componentDidUpdate; `apihost` through `scriptLocation`
      are consumed by the script loader; the boolean fields say whether the
      corresponding user callback prop is supplied (truthy). `apihost` and
      `scriptLocation` are modelled as optional strings (a container name for
      the latter). */
  datatype Props = Props(
    sitekey: JsValue,
    size: JsValue,
    theme: JsValue,
    tabindex: JsValue,
    languageOverride: JsValue,
    endpoint: JsValue,
    hl: JsValue,
    apihost: Option<string>,
    assethost: JsValue,
    host: JsValue,
    imghost: JsValue,
    reCaptchaCompat: JsValue,
    reportapi: JsValue,
    sentry: JsValue,
    custom: JsValue,
    loadAsync: JsValue,
    scriptLocation: Option<string>,
    onLoad: bool,
    onVerify: bool,
    onExpire: bool,
    onError: bool,
    onOpen: bool,
    onClose: bool,
    onChalExpired: bool)

  /** Every watched prop is strictly equal in `a` and `b`; a change to any of
      them forces the widget to be recreated. */
  predicate WatchedEqual(a: Props, b: Props) {
    && a.sitekey == b.sitekey
    && a.size == b.size
    && a.theme == b.theme
    && a.tabindex == b.tabindex
    && a.languageOverride == b.languageOverride
    && a.endpoint == b.endpoint
  }

  /** The options handed to the engine's render: all props, with `hl` taken
      from `hl || languageOverride` and `languageOverride` cleared. */
  function RenderParams(p: Props): (r: Props)
    ensures r.hl == p.hl || r.hl == p.languageOverride
    ensures Truthy(r.hl) <==> Truthy(p.hl) || Truthy(p.languageOverride)
    ensures Truthy(p.hl) ==> r.hl == p.hl
    ensures !Truthy(p.hl) ==> r.hl == p.languageOverride
    ensures r.languageOverride == Undefined
    ensures r.(hl := p.hl, languageOverride := p.languageOverride) == p
  {
    p.(hl := Or(p.hl, p.languageOverride), languageOverride := Undefined)
  }
}

=== FILE: controller.dfy ===
/** The per-instance widget controller (the `HCaptcha` component class).

    Each method becomes a pure transition from a component state and an
    environment to a Step holding the new component state and the new
    environment. The environment is the page (see ScriptLoader), the
    external engine (see ExternalApi), and a trace that every call into the
    engine and every user callback is appended to, in order. A `setState`
    callback runs right after the state update it belongs to. */
module Controller {
  import opened Wrappers
  import opened JsValues
  import opened Config
  import opened ExternalApi
  import opened ScriptLoader

  /** One observable action: a call into the engine or a user callback. */
  datatype Event =
    | ApiRender(id: nat, params: Props)
    | ApiReset(target: WidgetId)
    | ApiRemove(target: WidgetId)
    | ApiExecute(target: WidgetId, opts: JsValue)
    | ApiSetData(target: WidgetId, data: JsValue)
    | ApiGetResponse(target: WidgetId)
    | ApiGetRespKey(target: WidgetId)
    | OnLoad
    | OnVerify(token: string, key: string)
    | OnExpire
    | OnError(error: JsValue)
    | OnOpen
    | OnClose
    | OnChalExpired
    | OnRemoved

  /** The component's state plus its `apiScriptRequested` field. */
  datatype Component = Component(
    props: Props,
    isApiReady: bool,
    isRemoved: bool,
    captchaId: WidgetId,
    apiScriptRequested: bool)

  datatype Env = Env(page: Page, engine: Engine, trace: seq<Event>)

  datatype Step = Step(comp: Component, env: Env)

  /** What `removeCaptcha` does once the widget is removed: nothing, a
      caller's callback (seen as OnRemoved), or the re-render that
      componentDidUpdate asks for. */
  datatype AfterRemove = NoCallback | CallerCallback | RenderAgain

  /** The result of `execute` and `setData`: the new environment and, when
      the call was forwarded, the argument the engine received. */
  datatype Forwarded = Forwarded(env: Env, sent: Option<JsValue>)

  /** The result of the unguarded `getResponse` and `getRespKey`: the new
      environment and the value read, or `None` when the call throws because
      the captured window or `window.hcaptcha` is undefined. */
  datatype Read = Read(env: Env, value: Option<string>)

  /** Whether `scriptContainerWindow.hcaptcha` can be dereferenced: the
      window was captured by a script request and the API is defined in it. */
  predicate ApiReachable(page: Page) {
    page.windowCaptured && page.apiPresent
  }

  /** `isReady`: the API is known loaded and the widget is not removed. */
  predicate IsReady(c: Component) {
    c.isApiReady && !c.isRemoved
  }

  /** The component's id is one the engine has handed out (or unset), and
      the engine's own invariant holds. */
  predicate Coherent(c: Component, e: Engine) {
    Valid(e) && (c.captchaId.Id? ==> c.captchaId.n < e.next)
  }

  /** The events appended by a transition from `env` to `env'`. */
  function Added(env: Env, env': Env): seq<Event>
    requires |env.trace| <= |env'.trace|
  {
    env'.trace[|env.trace|..]
  }

  /** constructor: the API counts as ready only if the window was captured
      and `window.hcaptcha` is defined. */
  function Construct(props: Props, page: Page): (c: Component)
    ensures c.props == props && !c.isRemoved && c.captchaId == Unset && !c.apiScriptRequested
    ensures c.isApiReady <==> page.windowCaptured && page.apiPresent
  {
    Component(props, page.windowCaptured && page.apiPresent, false, Unset, false)
  }

  /** The argument of `mountCaptchaScript` built from the props. */
  function MountParamsOf(p: Props): (m: MountParams)
    ensures m.apihost == p.apihost && m.loadAsync == p.loadAsync && m.scriptLocation == p.scriptLocation
    ensures m.query.hl == p.languageOverride && m.query.endpoint == p.endpoint
    ensures m.query.assethost == p.assethost && m.query.host == p.host && m.query.imghost == p.imghost
    ensures m.query.reportapi == p.reportapi && m.query.sentry == p.sentry && m.query.custom == p.custom
    ensures m.query.recaptchacompat == Str("off") <==> p.reCaptchaCompat == Bool(false)
    ensures m.query.recaptchacompat != Str("off") ==> m.query.recaptchacompat == Null
  {
    MountParams(
      p.apihost, p.loadAsync, p.scriptLocation,
      QueryParams(
        p.assethost, p.endpoint, p.languageOverride, p.host, p.imghost,
        if p.reCaptchaCompat == Bool(false) then Str("off") else Null,
        p.reportapi, p.sentry, p.custom))
  }

  /** `renderCaptcha(onReady)`: a no-op unless the API is known ready;
      otherwise renders a widget with a fresh id, stores that id, clears
      `isRemoved`, and only then fires onLoad when asked to. */
  function RenderCaptcha(c: Component, env: Env, notifyLoad: bool): (r: Step)
    ensures |r.env.trace| >= |env.trace| && r.env.page == env.page && r.comp.props == c.props && r.comp.apiScriptRequested == c.apiScriptRequested
    ensures !c.isApiReady ==> r == Step(c, env)
    ensures c.isApiReady ==>
      && IsReady(r.comp)
      && r.comp.captchaId == Id(env.engine.next)
      && Live(r.env.engine, r.comp.captchaId)
      && r.env.engine.next == env.engine.next + 1
      && |r.env.trace| >= |env.trace| + 1
      && r.env.trace[..|env.trace| + 1] == env.trace + [ApiRender(r.comp.captchaId.n, RenderParams(c.props))]
    ensures c.isApiReady && Valid(env.engine) ==> !Live(env.engine, r.comp.captchaId) && Coherent(r.comp, r.env.engine)
    ensures c.isApiReady ==> (OnLoad in Added(env, r.env) <==> notifyLoad && c.props.onLoad)
    ensures c.isApiReady && notifyLoad && c.props.onLoad ==> r.env.trace[|r.env.trace| - 1] == OnLoad
    ensures c.isApiReady ==> r.env.engine == Render(env.engine, RenderParams(c.props)).engine
    ensures c.isApiReady ==>
      Added(env, r.env) == [ApiRender(env.engine.next, RenderParams(c.props))] + (if notifyLoad && c.props.onLoad then [OnLoad] else [])
  {
    if !c.isApiReady then Step(c, env)
    else
      var params := RenderParams(c.props);
      var rendered := Render(env.engine, params);
      var comp := c.(isRemoved := false, captchaId := Id(rendered.id));
      var added := [ApiRender(rendered.id, params)] + (if notifyLoad && c.props.onLoad then [OnLoad] else []);
      var trace' := env.trace + added;
      assert trace'[..|env.trace| + 1] == env.trace + [ApiRender(rendered.id, params)];
      assert Added(env, env.(trace := trace')) == added;
      Step(comp, env.(engine := rendered.engine, trace := trace'))
  }

  /** `resetCaptcha`: when ready, asks the engine to reset the current
      widget; otherwise nothing happens. */
  function ResetCaptcha(c: Component, env: Env): (r: Step)
    ensures r.comp == c && r.env.page == env.page
    ensures !IsReady(c) ==> r.env == env
    ensures IsReady(c) ==>
      && r.env.trace == env.trace + [ApiReset(c.captchaId)]
      && r.env.engine == Reset(env.engine, c.captchaId)
  {
    if !IsReady(c) then Step(c, env)
    else Step(c, env.(engine := Reset(env.engine, c.captchaId), trace := env.trace + [ApiReset(c.captchaId)]))
  }

  /** `removeCaptcha(callback)`: when ready, marks the widget removed, asks
      the engine to remove the current id and then runs the callback;
      otherwise nothing happens, the callback included. */
  function RemoveCaptcha(c: Component, env: Env, after: AfterRemove): (r: Step)
    ensures r.env.page == env.page && r.comp.props == c.props && r.comp.apiScriptRequested == c.apiScriptRequested
    ensures !IsReady(c) ==> r == Step(c, env)
    ensures IsReady(c) ==> |r.env.trace| > |env.trace| && r.env.trace[..|env.trace| + 1] == env.trace + [ApiRemove(c.captchaId)]
    ensures IsReady(c) && after != RenderAgain ==> r.comp == c.(isRemoved := true) && r.env.engine == Remove(env.engine, c.captchaId)
    ensures IsReady(c) && after == NoCallback ==> r.env.trace == env.trace + [ApiRemove(c.captchaId)]
    ensures IsReady(c) && after == CallerCallback ==> r.env.trace == env.trace + [ApiRemove(c.captchaId), OnRemoved]
    ensures IsReady(c) && after == RenderAgain ==>
      && IsReady(r.comp)
      && r.comp.captchaId == Id(env.engine.next)
      && r.env.engine == Render(Remove(env.engine, c.captchaId), RenderParams(c.props)).engine
      && r.env.trace == env.trace + [ApiRemove(c.captchaId), ApiRender(env.engine.next, RenderParams(c.props))]
    ensures IsReady(c) && Coherent(c, env.engine) ==> !Live(r.env.engine, c.captchaId) && Coherent(r.comp, r.env.engine)
  {
    if !IsReady(c) then Step(c, env)
    else
      var comp := c.(isRemoved := true);
      var env' := env.(engine := Remove(env.engine, c.captchaId), trace := env.trace + [ApiRemove(c.captchaId)]);
      match after
      case NoCallback => Step(comp, env')
      case CallerCallback => Step(comp, env'.(trace := env'.trace + [OnRemoved]))
      case RenderAgain =>
        var r := RenderCaptcha(comp, env', false);
        assert r.env.trace[..|env'.trace| + 1] == env'.trace + [ApiRender(env.engine.next, RenderParams(c.props))];
        r
  }

  /** `loadCaptcha`: the first call asks the loader for the script and
      attaches this component's continuation to the shared promise; every
      later call does nothing. No engine call is made. */
  function LoadCaptcha(self: nat, c: Component, env: Env, gen: QueryParams -> string): (r: Step)
    ensures r.comp == c.(apiScriptRequested := true)
    ensures r.env.engine == env.engine && r.env.trace == env.trace && r.env.page.signal == env.page.signal
    ensures c.apiScriptRequested ==> r.env == env
    ensures !c.apiScriptRequested ==>
      && r.env.page == MountScript(env.page, MountParamsOf(c.props), gen).page.(waiters := env.page.waiters + [self])
      && ScriptId in r.env.page.ids
    ensures LoaderOk(env.page) ==> LoaderOk(r.env.page)
  {
    if c.apiScriptRequested then Step(c, env)
    else
      var mounted := MountScript(env.page, MountParamsOf(c.props), gen);
      Step(c.(apiScriptRequested := true), env.(page := mounted.page.(waiters := mounted.page.waiters + [self])))
  }

  /** `componentDidMount`: renders at once when the API was already loaded
      at construction (without onLoad), otherwise requests the script. */
  function ComponentDidMount(self: nat, c: Component, env: Env, gen: QueryParams -> string): (r: Step)
    ensures |r.env.trace| >= |env.trace|
    ensures c.isApiReady ==> IsReady(r.comp) && r.env.page == env.page && OnLoad !in Added(env, r.env)
    ensures !c.isApiReady ==> r.comp == c.(apiScriptRequested := true) && r.env.engine == env.engine && r.env.trace == env.trace
    ensures c.isApiReady ==>
      && r.comp.captchaId == Id(env.engine.next)
      && r.env.engine == Render(env.engine, RenderParams(c.props)).engine
      && Added(env, r.env) == [ApiRender(env.engine.next, RenderParams(c.props))]
    ensures c.isApiReady ==>
      && r.comp == c.(isRemoved := false, captchaId := Id(env.engine.next))
      && r.env.trace == env.trace + [ApiRender(env.engine.next, RenderParams(c.props))]
    ensures !c.isApiReady && c.apiScriptRequested ==> r == Step(c, env)
    ensures !c.isApiReady && !c.apiScriptRequested ==>
      && r.env.page == MountScript(env.page, MountParamsOf(c.props), gen).page.(waiters := env.page.waiters + [self])
      && ScriptId in r.env.page.ids
      && r.env.page.waiters == env.page.waiters + [self]
  {
    if c.isApiReady then RenderCaptcha(c, env, false) else LoadCaptcha(self, c, env, gen)
  }

  /** `componentWillUnmount`: when ready, resets and then removes the
      widget in the engine; the component state itself is left as it is. */
  function ComponentWillUnmount(c: Component, env: Env): (r: Step)
    ensures r.comp == c && r.env.page == env.page
    ensures !IsReady(c) ==> r.env == env
    ensures IsReady(c) ==>
      && r.env.trace == env.trace + [ApiReset(c.captchaId), ApiRemove(c.captchaId)]
      && !Live(r.env.engine, c.captchaId)
      && r.env.engine.widgets.Keys == env.engine.widgets.Keys - (if c.captchaId.Id? then {c.captchaId.n} else {})
      && r.env.engine == Remove(Reset(env.engine, c.captchaId), c.captchaId)
      && r.env.engine.next == env.engine.next
      && (forall n :: n in r.env.engine.widgets ==> r.env.engine.widgets[n] == env.engine.widgets[n])
  {
    if !IsReady(c) then Step(c, env)
    else
      var reset := Reset(env.engine, c.captchaId);
      Step(c, env.(engine := Remove(reset, c.captchaId), trace := env.trace + [ApiReset(c.captchaId), ApiRemove(c.captchaId)]))
  }

  /** `componentDidUpdate(prevProps)`, with `c.props` already the new props:
      when a watched prop differs, remove-then-render; the removal itself is
      guarded, so a widget that is not ready is not re-rendered either. */
  function ComponentDidUpdate(prevProps: Props, c: Component, env: Env): (r: Step)
    ensures r.env.page == env.page && r.comp.props == c.props && r.comp.apiScriptRequested == c.apiScriptRequested
    ensures WatchedEqual(prevProps, c.props) || !IsReady(c) ==> r == Step(c, env)
    ensures !WatchedEqual(prevProps, c.props) && IsReady(c) ==>
      && IsReady(r.comp)
      && r.comp.captchaId == Id(env.engine.next)
      && r.env.engine == Render(Remove(env.engine, c.captchaId), RenderParams(c.props)).engine
      && r.env.trace == env.trace + [ApiRemove(c.captchaId), ApiRender(env.engine.next, RenderParams(c.props))]
    ensures !WatchedEqual(prevProps, c.props) && IsReady(c) && Coherent(c, env.engine) ==>
      && !Live(r.env.engine, c.captchaId)
      && Live(r.env.engine, r.comp.captchaId)
      && r.comp.captchaId != c.captchaId
  {
    if WatchedEqual(prevProps, c.props) then Step(c, env) else RemoveCaptcha(c, env, RenderAgain)
  }

  /** `handleOnLoad`, the continuation run when the shared promise resolves:
      the API is now known ready, a widget is rendered, and onLoad fires only
      after its id is stored. */
  function HandleOnLoad(c: Component, env: Env): (r: Step)
    ensures r.env.page == env.page
    ensures IsReady(r.comp) && r.comp.captchaId == Id(env.engine.next)
    ensures r.comp == c.(isApiReady := true, isRemoved := false, captchaId := r.comp.captchaId)
    ensures r.env.engine.next == env.engine.next + 1 && Live(r.env.engine, r.comp.captchaId)
    ensures r.env.engine == Render(env.engine, RenderParams(c.props)).engine
    ensures Valid(env.engine) ==> !Live(env.engine, r.comp.captchaId) && Coherent(r.comp, r.env.engine)
    ensures r.env.trace == env.trace + [ApiRender(env.engine.next, RenderParams(c.props))] + (if c.props.onLoad then [OnLoad] else [])
  {
    var r := RenderCaptcha(c.(isApiReady := true), env, true);
    assert r.env.trace[..|env.trace| + 1] == env.trace + [ApiRender(env.engine.next, RenderParams(c.props))];
    r
  }

  /** `handleSubmit`, the verify callback: unless the API is absent from the
      window or the widget is removed, reads the token and session key of the
      current id and hands both to onVerify. Note the guard is not `isReady`. */
  function HandleSubmit(c: Component, env: Env): (r: Step)
    ensures r.comp == c && r.env.page == env.page && r.env.engine == env.engine
    ensures !env.page.apiPresent || c.isRemoved ==> r.env == env
    ensures env.page.apiPresent && !c.isRemoved ==>
      && |r.env.trace| >= |env.trace| + 2
      && r.env.trace[..|env.trace| + 2] == env.trace + [ApiGetResponse(c.captchaId), ApiGetRespKey(c.captchaId)]
      && (c.props.onVerify <==> |r.env.trace| == |env.trace| + 3)
      && (c.props.onVerify ==> r.env.trace[|env.trace| + 2] == OnVerify(Response(env.engine, c.captchaId), RespKey(env.engine, c.captchaId)))
      && (!c.props.onVerify ==> |r.env.trace| == |env.trace| + 2)
  {
    if !env.page.apiPresent || c.isRemoved then Step(c, env)
    else
      var token := Response(env.engine, c.captchaId);
      var key := RespKey(env.engine, c.captchaId);
      var fetched := env.trace + [ApiGetResponse(c.captchaId), ApiGetRespKey(c.captchaId)];
      var trace := if c.props.onVerify then fetched + [OnVerify(token, key)] else fetched;
      assert trace[..|env.trace| + 2] == fetched;
      Step(c, env.(trace := trace))
  }

  /** `handleExpire`: when ready, resets the widget and then calls onExpire;
      otherwise nothing happens. */
  function HandleExpire(c: Component, env: Env): (r: Step)
    ensures r.comp == c && r.env.page == env.page
    ensures !IsReady(c) ==> r.env == env
    ensures IsReady(c) ==>
      && r.env.engine == Reset(env.engine, c.captchaId)
      && r.env.trace == env.trace + [ApiReset(c.captchaId)] + (if c.props.onExpire then [OnExpire] else [])
  {
    var reset := ResetCaptcha(c, env);
    if !IsReady(c) then reset
    else if c.props.onExpire then Step(c, reset.env.(trace := reset.env.trace + [OnExpire]))
    else reset
  }

  /** `handleError(event)`: resets the widget only when ready, but always
      forwards the event to onError when that callback is supplied. */
  function HandleError(c: Component, env: Env, event: JsValue): (r: Step)
    ensures r.comp == c && r.env.page == env.page
    ensures !IsReady(c) ==> r.env.engine == env.engine
    ensures IsReady(c) ==> r.env.engine == Reset(env.engine, c.captchaId)
    ensures r.env.trace == env.trace + (if IsReady(c) then [ApiReset(c.captchaId)] else []) + (if c.props.onError then [OnError(event)] else [])
  {
    var reset := ResetCaptcha(c, env);
    if c.props.onError then Step(c, reset.env.(trace := reset.env.trace + [OnError(event)])) else reset
  }

  /** The common shape of the open, close and challenge-expired handlers:
      the callback runs only when the widget is ready and it is supplied. */
  function Notify(c: Component, env: Env, supplied: bool, event: Event): (r: Step)
    ensures r.comp == c && r.env.page == env.page && r.env.engine == env.engine
    ensures IsReady(c) && supplied ==> r.env.trace == env.trace + [event]
    ensures !(IsReady(c) && supplied) ==> r.env == env
  {
    if !IsReady(c) || !supplied then Step(c, env) else Step(c, env.(trace := env.trace + [event]))
  }

  /** `handleOpen`. */
  function HandleOpen(c: Component, env: Env): (r: Step)
    ensures r.comp == c && r.env.page == env.page && r.env.engine == env.engine
    ensures r.env.trace == env.trace + (if IsReady(c) && c.props.onOpen then [OnOpen] else [])
  {
    Notify(c, env, c.props.onOpen, OnOpen)
  }

  /** `handleClose`. */
  function HandleClose(c: Component, env: Env): (r: Step)
    ensures r.comp == c && r.env.page == env.page && r.env.engine == env.engine
    ensures r.env.trace == env.trace + (if IsReady(c) && c.props.onClose then [OnClose] else [])
  {
    Notify(c, env, c.props.onClose, OnClose)
  }

  /** `handleChallengeExpired`. */
  function HandleChallengeExpired(c: Component, env: Env): (r: Step)
    ensures r.comp == c && r.env.page == env.page && r.env.engine == env.engine
    ensures r.env.trace == env.trace + (if IsReady(c) && c.props.onChalExpired then [OnChalExpired] else [])
  {
    Notify(c, env, c.props.onChalExpired, OnChalExpired)
  }

  /** `execute(opts = null)`: when ready, forwards the options to the engine
      for the current id, an absent argument taking its default null and a
      truthy non-object becoming null; otherwise returns undefined. */
  function Execute(c: Component, env: Env, opts: JsValue): (r: Forwarded)
    ensures r.env.page == env.page && r.env.engine == env.engine
    ensures !IsReady(c) ==> r.env == env && r.sent == None
    ensures IsReady(c) ==> r.sent.Some? && r.env.trace == env.trace + [ApiExecute(c.captchaId, r.sent.value)]
    ensures r.sent.Some? ==> !Truthy(r.sent.value) || r.sent.value.Obj?
    ensures IsReady(c) && opts == Undefined ==> r.sent == Some(Null)
    ensures IsReady(c) && opts != Undefined ==> r.sent == Some(ShapeGuard(opts))
  {
    if !IsReady(c) then Forwarded(env, None)
    else
      var given := if opts == Undefined then Null else opts;
      var sent := ShapeGuard(given);
      Forwarded(env.(trace := env.trace + [ApiExecute(c.captchaId, sent)]), Some(sent))
  }

  /** `setData(data)`: when ready, forwards the data to the engine for the
      current id, a truthy non-object becoming null (there is no default, so
      undefined stays undefined); otherwise nothing happens. */
  function SetDataCaptcha(c: Component, env: Env, data: JsValue): (r: Forwarded)
    ensures r.env.page == env.page
    ensures !IsReady(c) ==> r.env == env && r.sent == None
    ensures IsReady(c) ==>
      && r.sent == Some(ShapeGuard(data))
      && r.env.trace == env.trace + [ApiSetData(c.captchaId, ShapeGuard(data))]
      && r.env.engine == SetData(env.engine, c.captchaId, ShapeGuard(data))
    ensures r.sent.Some? ==> !Truthy(r.sent.value) || r.sent.value.Obj?
  {
    if !IsReady(c) then Forwarded(env, None)
    else
      var sent := ShapeGuard(data);
      Forwarded(env.(engine := SetData(env.engine, c.captchaId, sent), trace := env.trace + [ApiSetData(c.captchaId, sent)]), Some(sent))
  }

  /** `getResponse`: a read of the current id's token, guarded by neither
      `isReady` nor `isRemoved`; it throws when the API cannot be reached. */
  function GetResponse(c: Component, env: Env): (r: Read)
    ensures r.value.None? <==> !ApiReachable(env.page)
    ensures r.value.None? ==> r.env == env
    ensures r.value.Some? ==> r.env == env.(trace := env.trace + [ApiGetResponse(c.captchaId)])
    ensures r.value.Some? && Live(env.engine, c.captchaId) ==> r.value.value == env.engine.widgets[c.captchaId.n].token
    ensures r.value.Some? && !Live(env.engine, c.captchaId) ==> r.value.value == ""
  {
    if !ApiReachable(env.page) then Read(env, None)
    else Read(env.(trace := env.trace + [ApiGetResponse(c.captchaId)]), Some(Response(env.engine, c.captchaId)))
  }

  /** `getRespKey`: a read of the current id's session key, guarded by
      neither `isReady` nor `isRemoved`; it throws when the API cannot be
      reached. */
  function GetRespKey(c: Component, env: Env): (r: Read)
    ensures r.value.None? <==> !ApiReachable(env.page)
    ensures r.value.None? ==> r.env == env
    ensures r.value.Some? ==> r.env == env.(trace := env.trace + [ApiGetRespKey(c.captchaId)])
    ensures r.value.Some? && Live(env.engine, c.captchaId) ==> r.value.value == env.engine.widgets[c.captchaId.n].respKey
    ensures r.value.Some? && !Live(env.engine, c.captchaId) ==> r.value.value == ""
  {
    if !ApiReachable(env.page) then Read(env, None)
    else Read(env.(trace := env.trace + [ApiGetRespKey(c.captchaId)]), Some(RespKey(env.engine, c.captchaId)))
  }
}

=== FILE: external_api.dfy ===
/** An abstraction of the externally loaded `hcaptcha` engine: a map from the
    ids it has handed out to the widgets still alive, and a counter from which
    fresh ids are drawn. Rendering pixels, challenges and token issuing are
    not modelled; a widget only records its render options, its current
    response token and session key, and the last data it was given. */
module ExternalApi {
  import opened JsValues
  import opened Config

  /** The controller's `captchaId`: unset (the empty string the component
      starts with) or an id returned by render. */
  datatype WidgetId = Unset | Id(n: nat)

  datatype Widget = Widget(params: Props, token: string, respKey: string, data: JsValue)

  datatype Engine = Engine(widgets: map<nat, Widget>, next: nat)

  /** The result of render: the new engine state and the id it returned. */
  datatype Rendered = Rendered(engine: Engine, id: nat)

  /** Every id handed out so far is below the counter. */
  predicate Valid(e: Engine) {
    forall n :: n in e.widgets ==> n < e.next
  }

  /** `w` names a widget that is currently alive in the engine. */
  predicate Live(e: Engine, w: WidgetId) {
    w.Id? && w.n in e.widgets
  }

  /** An engine before any widget was rendered. */
  function Empty(): (e: Engine)
    ensures Valid(e) && e.widgets == map[]
  {
    Engine(map[], 0)
  }

  /** `hcaptcha.render`: creates a widget with a fresh id. */
  function Render(e: Engine, params: Props): (r: Rendered)
    ensures Valid(e) ==> r.id !in e.widgets && Valid(r.engine)
    ensures r.id == e.next && r.engine.next == e.next + 1
    ensures r.engine.widgets.Keys == e.widgets.Keys + {r.id}
    ensures r.id in r.engine.widgets && r.engine.widgets[r.id] == Widget(params, "", "", Undefined)
    ensures forall n :: n in e.widgets && n != r.id ==> r.engine.widgets[n] == e.widgets[n]
  {
    Rendered(Engine(e.widgets[e.next := Widget(params, "", "", Undefined)], e.next + 1), e.next)
  }

  /** `hcaptcha.reset`: clears the token and session key of a live widget and
      keeps its id. */
  function Reset(e: Engine, w: WidgetId): (r: Engine)
    ensures r.next == e.next && r.widgets.Keys == e.widgets.Keys
    ensures Valid(e) ==> Valid(r)
    ensures Live(e, w) ==> r.widgets[w.n] == e.widgets[w.n].(token := "", respKey := "")
    ensures forall n :: n in e.widgets && w != Id(n) ==> r.widgets[n] == e.widgets[n]
  {
    if Live(e, w) then e.(widgets := e.widgets[w.n := e.widgets[w.n].(token := "", respKey := "")]) else e
  }

  /** `hcaptcha.remove`: the widget is gone afterwards; no other widget changes. */
  function Remove(e: Engine, w: WidgetId): (r: Engine)
    ensures r.next == e.next
    ensures !Live(r, w)
    ensures r.widgets.Keys == e.widgets.Keys - (if w.Id? then {w.n} else {})
    ensures forall n :: n in r.widgets ==> r.widgets[n] == e.widgets[n]
    ensures Valid(e) ==> Valid(r)
  {
    if w.Id? then e.(widgets := e.widgets - {w.n}) else e
  }

  /** `hcaptcha.setData`: records the data on a live widget. */
  function SetData(e: Engine, w: WidgetId, data: JsValue): (r: Engine)
    ensures r.next == e.next && r.widgets.Keys == e.widgets.Keys
    ensures Valid(e) ==> Valid(r)
    ensures Live(e, w) ==> r.widgets[w.n] == e.widgets[w.n].(data := data)
    ensures forall n :: n in e.widgets && w != Id(n) ==> r.widgets[n] == e.widgets[n]
  {
    if Live(e, w) then e.(widgets := e.widgets[w.n := e.widgets[w.n].(data := data)]) else e
  }

  /** The user solves the challenge of a live widget: the engine stores the
      new token and session key on it before calling the verify callback. */
  function Solve(e: Engine, w: WidgetId, token: string, key: string): (r: Engine)
    ensures r.next == e.next && r.widgets.Keys == e.widgets.Keys
    ensures Valid(e) ==> Valid(r)
    ensures Live(e, w) ==> r.widgets[w.n] == e.widgets[w.n].(token := token, respKey := key)
    ensures forall n :: n in e.widgets && w != Id(n) ==> r.widgets[n] == e.widgets[n]
  {
    if Live(e, w) then e.(widgets := e.widgets[w.n := e.widgets[w.n].(token := token, respKey := key)]) else e
  }

  /** `hcaptcha.getResponse`: the current token, empty for an unknown id. */
  function Response(e: Engine, w: WidgetId): (t: string)
    ensures Live(e, w) ==> t == e.widgets[w.n].token
    ensures !Live(e, w) ==> t == ""
  {
    if Live(e, w) then e.widgets[w.n].token else ""
  }

  /** `hcaptcha.getRespKey`: the current session key, empty for an unknown id. */
  function RespKey(e: Engine, w: WidgetId): (k: string)
    ensures Live(e, w) ==> k == e.widgets[w.n].respKey
    ensures !Live(e, w) ==> k == ""
  {
    if Live(e, w) then e.widgets[w.n].respKey else ""
  }

  /** After a reset the widget reports no token and no session key. */
  lemma ResetClearsResponse(e: Engine, w: WidgetId)
    ensures Response(Reset(e, w), w) == "" && RespKey(Reset(e, w), w) == ""
    ensures Live(Reset(e, w), w) <==> Live(e, w)
  {
  }
}

=== FILE: js_values.dfy ===
/** The JavaScript values that flow through the widget controller, with the
    two pieces of JavaScript semantics the controller relies on: truthiness
    (used by `||` and by every `if (x)` test) and `typeof x === "object"`. */
module JsValues {

  /** A JavaScript value. Numbers are integers: NaN and -0 are outside the
      model, so datatype equality coincides with strict equality (`===`);
      objects and functions are compared by reference. */
  datatype JsValue =
    | Undefined
    | Null
    | Bool(b: bool)
    | Num(n: int)
    | Str(s: string)
    | Obj(ref: nat)
    | Func(ref: nat)

  /** JavaScript's ToBoolean. */
  predicate Truthy(v: JsValue) {
    match v
    case Undefined => false
    case Null => false
    case Bool(b) => b
    case Num(n) => n != 0
    case Str(s) => s != ""
    case Obj(_) => true
    case Func(_) => true
  }

  /** `typeof v === "object"`, which also holds for null. */
  predicate IsObjectType(v: JsValue) {
    v.Null? || v.Obj?
  }

  /** `a || b`: the first operand when it is truthy, otherwise the second. */
  function Or(a: JsValue, b: JsValue): (r: JsValue)
    ensures r == a || r == b
    ensures Truthy(r) <==> Truthy(a) || Truthy(b)
    ensures Truthy(a) ==> r == a
    ensures !Truthy(a) ==> r == b
  {
    if Truthy(a) then a else b
  }

  /** The argument guard shared by `execute` and `setData`: a truthy value
      that is not an object is replaced by null; everything else is passed on
      unchanged. */
  function ShapeGuard(v: JsValue): (r: JsValue)
    ensures r == v || r == Null
    ensures r == v <==> !Truthy(v) || v.Obj?
    ensures !Truthy(r) || r.Obj?
  {
    if Truthy(v) && !IsObjectType(v) then Null else v
  }

  /** Applying the guard to an already guarded value changes nothing. */
  lemma ShapeGuardIdempotent(v: JsValue)
    ensures ShapeGuard(ShapeGuard(v)) == ShapeGuard(v)
  {
  }
}

=== FILE: lifecycle.dfy ===
/** A controller driven through arbitrary sequences of the events the host
    and the engine can deliver to it, and the facts that hold over every such
    run. Unmounting is left out of the action alphabet: it is the last thing
    that happens to a component and is stated on its own. */
module Lifecycle {
  import opened Wrappers
  import opened JsValues
  import opened Config
  import opened ExternalApi
  import opened ScriptLoader
  import opened Controller

  /** Something that happens to one mounted controller. */
  datatype Action =
    | Mount
    | PropsChanged(next: Props)
    | ApiLoaded
    | LoadFailed
    | Verified
    | Solved(token: string, key: string)
    | Expired
    | Errored(event: JsValue)
    | Opened
    | Closed
    | ChallengeExpired
    | ResetCalled
    | RemoveCalled(after: AfterRemove)
    | ExecuteCalled(opts: JsValue)
    | SetDataCalled(data: JsValue)

  /** Runs one action on controller `self`. A props change installs the new
      props and then runs componentDidUpdate with the old ones; a load
      failure reaches handleError with the promise's rejection reason; a
      solved challenge updates the widget in the engine and then calls the
      verify callback. */
  function Apply(self: nat, a: Action, c: Component, env: Env, gen: QueryParams -> string): Step {
    match a
    case Mount => ComponentDidMount(self, c, env, gen)
    case PropsChanged(next) => ComponentDidUpdate(c.props, c.(props := next), env)
    case ApiLoaded => HandleOnLoad(c, env)
    case LoadFailed => HandleError(c, env, Str(ScriptError))
    case Verified => HandleSubmit(c, env)
    case Solved(token, key) => HandleSubmit(c, env.(engine := Solve(env.engine, c.captchaId, token, key)))
    case Expired => HandleExpire(c, env)
    case Errored(event) => HandleError(c, env, event)
    case Opened => HandleOpen(c, env)
    case Closed => HandleClose(c, env)
    case ChallengeExpired => HandleChallengeExpired(c, env)
    case ResetCalled => ResetCaptcha(c, env)
    case RemoveCalled(after) => RemoveCaptcha(c, env, after)
    case ExecuteCalled(opts) => Step(c, Execute(c, env, opts).env)
    case SetDataCalled(data) => Step(c, SetDataCaptcha(c, env, data).env)
  }

  function ApplyAll(self: nat, actions: seq<Action>, c: Component, env: Env, gen: QueryParams -> string): Step
    decreases |actions|
  {
    if |actions| == 0 then Step(c, env)
    else
      var s := Apply(self, actions[0], c, env, gen);
      ApplyAll(self, actions[1..], s.comp, s.env, gen)
  }

  /** The controller's invariant: its id was handed out by the engine, and
      while it is ready with an id, that widget is alive. */
  predicate Inv(c: Component, env: Env) {
    && Coherent(c, env.engine)
    && (IsReady(c) && c.captchaId.Id? ==> Live(env.engine, c.captchaId))
  }

  /** A freshly constructed controller satisfies the invariant in any
      engine that only holds ids it handed out. */
  lemma ConstructEstablishesInv(props: Props, page: Page, env: Env)
    requires Valid(env.engine)
    ensures Inv(Construct(props, page), env)
    ensures !IsReady(Construct(props, page)) || !Construct(props, page).captchaId.Id?
  {
  }

  /** Every action keeps the invariant, never rewrites the trace, and leaves
      the script request flag set once set. */
  lemma ApplyPreservesInv(self: nat, a: Action, c: Component, env: Env, gen: QueryParams -> string)
    requires Inv(c, env)
    ensures var r := Apply(self, a, c, env, gen);
            && Inv(r.comp, r.env)
            && env.trace <= r.env.trace
            && (c.apiScriptRequested ==> r.comp.apiScriptRequested)
  {

  }

  /** The invariant holds after any run of actions, and the trace of a run
      extends the trace it started from. */
  lemma {:induction false} ApplyAllPreservesInv(self: nat, actions: seq<Action>, c: Component, env: Env, gen: QueryParams -> string)
    requires Inv(c, env)
    ensures var r := ApplyAll(self, actions, c, env, gen);
            Inv(r.comp, r.env) && env.trace <= r.env.trace
    decreases |actions|
  {
    if |actions| > 0 {
      var s := Apply(self, actions[0], c, env, gen);
      ApplyPreservesInv(self, actions[0], c, env, gen);
      ApplyAllPreservesInv(self, actions[1..], s.comp, s.env, gen);
    }
  }

  /** One action asks for the script at most once per controller: only the
      first Mount of a controller that has not requested it yet touches the
      page, and it adds that controller's continuation. */
  lemma ApplyRequestsOnce(self: nat, a: Action, c: Component, env: Env, gen: QueryParams -> string)
    ensures var r := Apply(self, a, c, env, gen);
            && (c.apiScriptRequested ==> r.comp.apiScriptRequested && r.env.page == env.page)
            && (r.env.page == env.page
                || (!c.apiScriptRequested && r.comp.apiScriptRequested
                    && r.env.page == MountScript(env.page, MountParamsOf(c.props), gen).page.(waiters := env.page.waiters + [self])))
  {
  }

  /** `after` is `before` with at most one script request made by controller
      `self`, which is possible only if `c` had not requested the script. */
  predicate RequestedAtMostOnce(self: nat, c: Component, before: Page, after: Page) {
    && (c.apiScriptRequested ==> after == before)
    && (after == before
        || (!c.apiScriptRequested
            && after.waiters == before.waiters + [self]
            && after.signal == before.signal))
    && (LoaderOk(before) ==> LoaderOk(after))
  }

  /** Over a whole run, a controller requests the script at most once: the
      page either stays as it was, or changes by exactly one request that
      attaches this controller once. With the loader's invariant, at most one
      script element exists at the end. */
  lemma {:induction false} ApplyAllRequestsOnce(self: nat, actions: seq<Action>, c: Component, env: Env, gen: QueryParams -> string)
    ensures RequestedAtMostOnce(self, c, env.page, ApplyAll(self, actions, c, env, gen).env.page)
    decreases |actions|
  {
    if |actions| > 0 {
      var s := Apply(self, actions[0], c, env, gen);
      ApplyRequestsOnce(self, actions[0], c, env, gen);
      ApplyAllRequestsOnce(self, actions[1..], s.comp, s.env, gen);
    }
  }

  /** `isReady` gates reset, remove, execute, setData, unmount and the
      expire, error, open, close and challenge-expired handlers: the guarded
      engine calls happen exactly when the controller is ready, and otherwise
      nothing changes except that the error handler still calls onError. */
  lemma ReadyGatesEngineCalls(c: Component, env: Env, after: AfterRemove, opts: JsValue, data: JsValue)
    ensures IsReady(c) <==> ResetCaptcha(c, env).env.trace != env.trace
    ensures IsReady(c) <==> RemoveCaptcha(c, env, after).env.trace != env.trace
    ensures IsReady(c) <==> Execute(c, env, opts).env.trace != env.trace
    ensures IsReady(c) <==> SetDataCaptcha(c, env, data).env.trace != env.trace
    ensures IsReady(c) <==> ComponentWillUnmount(c, env).env.trace != env.trace
    ensures IsReady(c) <==> HandleExpire(c, env).env.trace != env.trace
    ensures !IsReady(c) ==>
      && HandleExpire(c, env).env == env
      && HandleOpen(c, env).env == env
      && HandleClose(c, env).env == env
      && HandleChallengeExpired(c, env).env == env
      && HandleError(c, env, Str(ScriptError)).env.engine == env.engine
    ensures !IsReady(c) ==>
      && ResetCaptcha(c, env) == Step(c, env)
      && RemoveCaptcha(c, env, after) == Step(c, env)
      && Execute(c, env, opts) == Forwarded(env, None)
      && SetDataCaptcha(c, env, data) == Forwarded(env, None)
      && ComponentWillUnmount(c, env) == Step(c, env)
  {

  }

  /** The values handed to execute and setData: objects and falsy values pass
      unchanged, truthy non-objects become null. */
  lemma ExecuteAndSetDataCoerce(c: Component, env: Env, v: JsValue)
    requires IsReady(c)
    ensures v.Obj? ==> Execute(c, env, v).sent == Some(v) && SetDataCaptcha(c, env, v).sent == Some(v)
    ensures Truthy(v) && !v.Obj? ==> Execute(c, env, v).sent == Some(Null) && SetDataCaptcha(c, env, v).sent == Some(Null)
    ensures v == Undefined ==> Execute(c, env, v).sent == Some(Null) && SetDataCaptcha(c, env, v).sent == Some(Undefined)
  {
  }

  /** onLoad runs only once the new id is stored: an execute issued from the
      onLoad callback reaches the widget that was just rendered. */
  lemma OnLoadSeesRenderedWidget(c: Component, env: Env, opts: JsValue)
    ensures var r := HandleOnLoad(c, env);
            && IsReady(r.comp)
            && Execute(r.comp, r.env, opts).sent.Some?
            && Live(r.env.engine, r.comp.captchaId)
            && Execute(r.comp, r.env, opts).env.trace[|r.env.trace|].target == Id(env.engine.next)
  {
  }

  /** A prop change outside the watch-list never removes or re-renders the
      widget. */
  lemma UnwatchedChangeKeepsWidget(c: Component, env: Env, hl: JsValue, apihost: Option<string>, onVerify: bool)
    ensures var next := c.props.(hl := hl, apihost := apihost, onVerify := onVerify);
            ComponentDidUpdate(c.props, c.(props := next), env) == Step(c.(props := next), env)
  {
  }

  /** A change to any watched prop on a ready widget removes the old id
      first and then renders a new, different one with the new props. */
  lemma WatchedChangeRecreates(c: Component, env: Env, next: Props)
    requires IsReady(c) && Coherent(c, env.engine)
    requires !WatchedEqual(c.props, next)
    ensures var r := ComponentDidUpdate(c.props, c.(props := next), env);
            && Added(env, r.env) == [ApiRemove(c.captchaId), ApiRender(r.comp.captchaId.n, RenderParams(next))]
            && r.comp.captchaId != c.captchaId
            && !Live(r.env.engine, c.captchaId)
            && Live(r.env.engine, r.comp.captchaId)
  {

  }

  /** The unmount hook does not cancel a pending render: a controller still
      waiting for the script is untouched by unmounting, and when the shared
      promise resolves afterwards its continuation still renders a widget. */
  lemma UnmountDoesNotCancelPendingRender(c: Component, env: Env)
    requires !c.isApiReady
    ensures ComponentWillUnmount(c, env) == Step(c, env)
    ensures var late := HandleOnLoad(c, env);
            ApiRender(env.engine.next, RenderParams(c.props)) in Added(env, late.env)
            && Live(late.env.engine, late.comp.captchaId)
  {

  }

  /** Unmounting a ready widget removes it in the engine but leaves the
      component's own flags as they were, so it still counts as ready. */
  lemma UnmountKeepsReadyFlag(c: Component, env: Env)
    requires IsReady(c) && c.captchaId.Id?
    ensures var r := ComponentWillUnmount(c, env);
            IsReady(r.comp) && !Live(r.env.engine, r.comp.captchaId)
  {
  }

  /** The verify handler's guard is weaker than readiness: a controller that
      has not seen its own load continuation yet still forwards a verify
      event once the API is present on the page. */
  lemma SubmitNeedsOnlyApiPresence(c: Component, env: Env)
    requires !c.isApiReady && !c.isRemoved && env.page.apiPresent && c.props.onVerify
    ensures !IsReady(c)
    ensures var r := HandleSubmit(c, env);
            r.env.trace[|r.env.trace| - 1] == OnVerify(Response(env.engine, c.captchaId), RespKey(env.engine, c.captchaId))
  {
  }

  /** After an expiry the widget's token is cleared, so a verify that
      follows forwards an empty token and session key. */
  lemma ExpireClearsForwardedToken(c: Component, env: Env)
    requires IsReady(c) && env.page.apiPresent && c.props.onVerify
    ensures var e := HandleExpire(c, env);
            var v := HandleSubmit(e.comp, e.env);
            v.env.trace[|v.env.trace| - 1] == OnVerify("", "")
  {

  }

  /** When the API was already loaded at construction, mounting renders the
      widget without ever calling onLoad. */
  lemma MountWhenLoadedSkipsOnLoad(props: Props, env: Env, self: nat, gen: QueryParams -> string)
    requires env.page.windowCaptured && env.page.apiPresent && props.onLoad
    ensures var c := Construct(props, env.page);
            var r := ComponentDidMount(self, c, env, gen);
            && IsReady(r.comp) && OnLoad !in Added(env, r.env) && r.env.page == env.page
            && r.comp.captchaId == Id(env.engine.next) && Live(r.env.engine, r.comp.captchaId)
            && Added(env, r.env) == [ApiRender(env.engine.next, RenderParams(props))]
  {
  }

  /** A solved challenge on a ready widget reaches onVerify with exactly the
      token and session key the engine just stored, read back through the
      current id. */
  lemma SolvedDeliversToken(self: nat, c: Component, env: Env, token: string, key: string, gen: QueryParams -> string)
    requires Inv(c, env) && IsReady(c) && c.captchaId.Id?
    requires env.page.apiPresent && c.props.onVerify
    ensures var r := Apply(self, Solved(token, key), c, env, gen);
            Added(env, r.env) == [ApiGetResponse(c.captchaId), ApiGetRespKey(c.captchaId), OnVerify(token, key)]
  {
  }

  /** After a solved challenge, an application's own getResponse and
      getRespKey return the stored token and key, unless the widget was
      reset in between, in which case both are empty. */
  lemma SolvedThenRead(self: nat, c: Component, env: Env, token: string, key: string, gen: QueryParams -> string)
    requires Inv(c, env) && IsReady(c) && c.captchaId.Id? && ApiReachable(env.page)
    ensures var s := Apply(self, Solved(token, key), c, env, gen);
            && GetResponse(s.comp, s.env).value == Some(token)
            && GetRespKey(s.comp, s.env).value == Some(key)
    ensures var s := Apply(self, Solved(token, key), c, env, gen);
            var z := ResetCaptcha(s.comp, s.env);
            && GetResponse(z.comp, z.env).value == Some("")
            && GetRespKey(z.comp, z.env).value == Some("")
  {
    var s := Apply(self, Solved(token, key), c, env, gen);
    ResetClearsResponse(s.env.engine, s.comp.captchaId);
  }
}

=== FILE: script_loader.dfy ===
/** The page-wide single-flight loader of the hCaptcha API script
    (`mountCaptchaScript` and the module-level promise it hands out).

    The document is abstracted as the set of element ids it holds plus the
    list of scripts the loader appended; the window as two flags (whether the
    loader has captured it, whether `window.hcaptcha` is defined); the shared
    promise as a Signal that is settled at most once, together with the list
    of controllers whose continuation is attached to it. */
module ScriptLoader {
  import opened Wrappers
  import opened JsValues

  const ScriptId: string := "hcaptcha-api-script-id"
  const OnLoadName: string := "hcaptchaOnLoad"
  const DefaultApiHost: string := "https://js.hcaptcha.com"
  const ApiPath: string := "/1/api.js?render=explicit&onload="
  /** The reason the promise is rejected with when the script fails to load. */
  const ScriptError: string := "script-error"

  /** The state of the shared promise. */
  datatype Signal = Pending | Resolved | Rejected(reason: string)

  /** Where the script element is appended: the document head by default. */
  datatype Parent = Head | Location(name: string)

  datatype Script = Script(id: string, src: string, async: bool, parent: Parent)

  /** The parameters left for query serialisation once `scriptLocation`,
      `apihost` and `loadAsync` have been deleted: those three can never
      reach the query string. */
  datatype QueryParams = QueryParams(
    assethost: JsValue,
    endpoint: JsValue,
    hl: JsValue,
    host: JsValue,
    imghost: JsValue,
    recaptchacompat: JsValue,
    reportapi: JsValue,
    sentry: JsValue,
    custom: JsValue)

  /** The argument of `mountCaptchaScript`. */
  datatype MountParams = MountParams(
    apihost: Option<string>,
    loadAsync: JsValue,
    scriptLocation: Option<string>,
    query: QueryParams)

  /** The page-wide state the loader reads and writes.
      - ids: ids of all elements in the document;
      - scripts: scripts appended by the loader, in order;
      - onloadRegistered: `window.hcaptchaOnLoad` is the promise's resolver;
      - windowCaptured: the module-level window reference is set;
      - apiPresent: `window.hcaptcha` is defined;
      - signal: the shared promise;
      - waiters: keys of the controllers whose continuation awaits it. */
  datatype Page = Page(
    ids: set<string>,
    scripts: seq<Script>,
    onloadRegistered: bool,
    windowCaptured: bool,
    apiPresent: bool,
    signal: Signal,
    waiters: seq<nat>)

  /** The result of `mountCaptchaScript`: the new page and the promise returned. */
  datatype Mounted = Mounted(page: Page, promise: Signal)

  /** A page as it is before any widget ran. */
  function FreshPage(ids: set<string>): (p: Page)
    ensures LoaderOk(p) && p.signal == Pending && p.scripts == [] && p.waiters == []
  {
    Page(ids, [], false, false, false, Pending, [])
  }

  /** The loader's own invariant: it appended at most one script, that script
      carries the well-known id and is in the document, and the load callback
      is registered exactly when the script was appended. */
  predicate LoaderOk(p: Page) {
    && |p.scripts| <= 1
    && (p.onloadRegistered <==> |p.scripts| == 1)
    && (|p.scripts| == 1 ==> p.scripts[0].id == ScriptId && ScriptId in p.ids)
  }

  /** Settling a promise: only a pending one changes. */
  function Settle(s: Signal, outcome: Signal): (r: Signal)
    ensures s != Pending ==> r == s
    ensures s == Pending ==> r == outcome
  {
    if s.Pending? then outcome else s
  }

  /** A series of attempts to settle the same promise. */
  function SettleAll(s: Signal, outcomes: seq<Signal>): Signal
    decreases |outcomes|
  {
    if |outcomes| == 0 then s else SettleAll(Settle(s, outcomes[0]), outcomes[1..])
  }

  /** Once settled, a promise ignores every later attempt. */
  lemma {:induction false} SettledStays(s: Signal, outcomes: seq<Signal>)
    requires s != Pending
    ensures SettleAll(s, outcomes) == s
    decreases |outcomes|
  {
    if |outcomes| > 0 {
      SettledStays(Settle(s, outcomes[0]), outcomes[1..]);
    }
  }

  /** The promise is settled at most once: whatever attempts follow, the
      outcome is the first one. */
  lemma {:induction false} FirstSettlementWins(outcomes: seq<Signal>)
    requires forall i :: 0 <= i < |outcomes| ==> outcomes[i] != Pending
    ensures |outcomes| == 0 ==> SettleAll(Pending, outcomes) == Pending
    ensures |outcomes| > 0 ==> SettleAll(Pending, outcomes) == outcomes[0]
  {
    if |outcomes| > 0 {
      SettledStays(outcomes[0], outcomes[1..]);
    }
  }

  /** `params.apihost || "https://js.hcaptcha.com"`. */
  function ApiDomain(apihost: Option<string>): (d: string)
    ensures apihost.Some? && apihost.value != "" ==> d == apihost.value
    ensures apihost.None? || apihost.value == "" ==> d == DefaultApiHost
  {
    if apihost.Some? && apihost.value != "" then apihost.value else DefaultApiHost
  }

  /** The script URL before the serialised query is added. */
  function BaseSrc(apihost: Option<string>): string {
    ApiDomain(apihost) + ApiPath + OnLoadName
  }

  /** The script URL: the fixed explicit-render and onload query, followed by
      `&` and the serialised parameters only when these are not empty. */
  function ScriptSrc(apihost: Option<string>, query: string): (src: string)
    ensures BaseSrc(apihost) <= src
    ensures src == BaseSrc(apihost) <==> query == ""
    ensures query != "" ==> src[|BaseSrc(apihost)|..] == "&" + query
  {
    var base := BaseSrc(apihost);
    var src := base + (if query != "" then "&" + query else "");
    assert src[..|base|] == base;
    src
  }

  /** Reads the serialised parameters back out of a script URL. */
  function QueryOf(src: string, base: string): string
    requires base <= src
  {
    var rest := src[|base|..];
    if rest == [] then "" else rest[1..]
  }

  /** The query string can be recovered from the URL: no two queries give
      the same script URL. */
  lemma ScriptSrcRoundTrip(apihost: Option<string>, query: string)
    ensures QueryOf(ScriptSrc(apihost, query), BaseSrc(apihost)) == query
  {

  }

  /** `script.async`: the given `loadAsync` converted to a boolean, true when
      it is undefined. */
  function AsyncFlag(loadAsync: JsValue): (async: bool)
    ensures async <==> loadAsync == Undefined || Truthy(loadAsync)
  {
    if loadAsync != Undefined then Truthy(loadAsync) else true
  }

  /** `params.scriptLocation || document.head`. */
  function ParentOf(scriptLocation: Option<string>): (r: Parent)
    ensures scriptLocation.None? <==> r == Head
    ensures scriptLocation.Some? ==> r == Location(scriptLocation.value)
  {
    if scriptLocation.Some? then Location(scriptLocation.value) else Head
  }

  /** The script element the loader would append for these parameters, with
      `gen` the query serialiser. */
  function ScriptFor(m: MountParams, gen: QueryParams -> string): Script {
    Script(ScriptId, ScriptSrc(m.apihost, gen(m.query)), AsyncFlag(m.loadAsync), ParentOf(m.scriptLocation))
  }

  /** `mountCaptchaScript`: captures the window, then, unless an element with
      the well-known id already exists, registers the load callback and
      appends the script. Either way it returns the one shared promise, which
      mounting never settles. */
  function MountScript(p: Page, m: MountParams, gen: QueryParams -> string): (r: Mounted)
    ensures r.promise == p.signal && r.page.signal == p.signal
    ensures r.page.windowCaptured && ScriptId in r.page.ids
    ensures r.page.apiPresent == p.apiPresent && r.page.waiters == p.waiters
    ensures ScriptId in p.ids ==> r.page == p.(windowCaptured := true)
    ensures ScriptId !in p.ids ==>
      && r.page.scripts == p.scripts + [ScriptFor(m, gen)]
      && r.page.ids == p.ids + {ScriptId}
      && r.page.onloadRegistered
    ensures LoaderOk(p) ==> LoaderOk(r.page)
  {
    var captured := p.(windowCaptured := true);
    if ScriptId in p.ids then
      Mounted(captured, p.signal)
    else
      var page := captured.(
        onloadRegistered := true,
        scripts := p.scripts + [ScriptFor(m, gen)],
        ids := p.ids + {ScriptId});
      Mounted(page, p.signal)
  }

  /** A second request in the same page changes nothing more. */
  lemma MountIdempotent(p: Page, m1: MountParams, m2: MountParams, gen1: QueryParams -> string, gen2: QueryParams -> string)
    ensures var once := MountScript(p, m1, gen1);
            MountScript(once.page, m2, gen2) == once
  {
  }

  /** A series of requests, as made by many widgets on the same page. */
  function MountAll(p: Page, ms: seq<MountParams>, gen: QueryParams -> string): Page
    decreases |ms|
  {
    if |ms| == 0 then p else MountAll(MountScript(p, ms[0], gen).page, ms[1..], gen)
  }

  /** However many widgets request the script, at most one script element is
      appended, it is the one the first request built, and the shared promise
      is untouched. An element already holding the id suppresses the script. */
  lemma {:induction false} MountAllSingleFlight(p: Page, ms: seq<MountParams>, gen: QueryParams -> string)
    requires LoaderOk(p)
    ensures var r := MountAll(p, ms, gen);
            && LoaderOk(r)
            && r.signal == p.signal
            && r.waiters == p.waiters
            && (ScriptId in p.ids ==> r.scripts == p.scripts)
            && (ScriptId !in p.ids && |ms| > 0 ==> r.scripts == p.scripts + [ScriptFor(ms[0], gen)])
    decreases |ms|
  {
    if |ms| > 0 {
      var q := MountScript(p, ms[0], gen).page;
      MountAllSingleFlight(q, ms[1..], gen);
      if ScriptId !in p.ids {
        assert ScriptId in q.ids;
      }
    }
  }

  /** The API script ran: `window.hcaptcha` becomes defined and the
      registered `hcaptchaOnLoad` resolves the shared promise. Nothing happens
      when no script was appended. */
  function ScriptLoaded(p: Page): (r: Page)
    ensures r.scripts == p.scripts && r.ids == p.ids && r.waiters == p.waiters
    ensures r.windowCaptured == p.windowCaptured && r.onloadRegistered == p.onloadRegistered
    ensures |p.scripts| == 0 ==> r == p
    ensures |p.scripts| > 0 ==> r.apiPresent
    ensures !p.onloadRegistered ==> r.signal == p.signal
    ensures |p.scripts| > 0 && p.onloadRegistered && p.signal == Pending ==> r.signal == Resolved
    ensures p.signal != Pending ==> r.signal == p.signal
    ensures LoaderOk(p) && |p.scripts| > 0 && p.signal == Pending ==> r.signal == Resolved
    ensures LoaderOk(p) ==> LoaderOk(r)
  {
    if |p.scripts| == 0 then p
    else p.(apiPresent := true, signal := if p.onloadRegistered then Settle(p.signal, Resolved) else p.signal)
  }

  /** The script element reported an error: the shared promise is rejected
      with "script-error", unless it was already settled. */
  function ScriptFailed(p: Page): (r: Page)
    ensures r.scripts == p.scripts && r.ids == p.ids && r.waiters == p.waiters && r.apiPresent == p.apiPresent
    ensures r.windowCaptured == p.windowCaptured && r.onloadRegistered == p.onloadRegistered
    ensures |p.scripts| == 0 ==> r == p
    ensures p.signal != Pending ==> r.signal == p.signal
    ensures |p.scripts| > 0 && p.signal == Pending ==> r.signal == Rejected(ScriptError)
    ensures LoaderOk(p) ==> LoaderOk(r)
  {
    if |p.scripts| == 0 then p else p.(signal := Settle(p.signal, Rejected(ScriptError)))
  }

  /** With the default host and no extra parameters the script URL is the
      documented one. */
  lemma DefaultScriptUrl()
    ensures ScriptSrc(None, "") == "https://js.hcaptcha.com" + "/1/api.js?render=explicit&onload=" + "hcaptchaOnLoad"
  {
  }

  /** A custom API host replaces the origin and keeps the fixed path. */
  lemma CustomHostScriptUrl(query: string)
    ensures "https://example.test" + "/1/api.js?render=explicit&onload=" <= ScriptSrc(Some("https://example.test"), query)
  {
    var host := "https://example.test";
    assert BaseSrc(Some(host)) == (host + ApiPath) + OnLoadName;
  }
}

=== FILE: shared_load.dfy ===
/** Many controllers on one page sharing the single script request and the
    single promise: what happens when the promise settles and the
    continuations attached to it run. */
module SharedLoad {
  import opened JsValues
  import opened Config
  import opened ExternalApi
  import opened ScriptLoader
  import opened Controller

  /** The page, the engine and the trace, plus every controller by key. */
  datatype World = World(env: Env, comps: map<nat, Component>)

  /** No key is attached twice. */
  predicate NoDuplicates(ws: seq<nat>) {
    forall i, j :: 0 <= i < j < |ws| ==> ws[i] != ws[j]
  }

  /** The ids `from` up to but excluding `from + count`. */
  function IdRange(from: nat, count: nat): (r: set<nat>)
    ensures forall n :: n in r <==> from <= n < from + count
    decreases count
  {
    if count == 0 then {} else IdRange(from, count - 1) + {from + count - 1}
  }

  /** `after` holds every id of `before` and, besides them, only ids from
      `from` up to but excluding `from + count`. */
  predicate GrewWithin(before: set<nat>, after: set<nat>, from: nat, count: nat) {
    before <= after <= before + IdRange(from, count)
  }

  /** Controller `c` after its success continuation rendered widget `id`. */
  function ReadyWith(c: Component, id: nat): Component {
    c.(isApiReady := true, isRemoved := false, captchaId := Id(id))
  }

  /** Runs the continuation of controller `k` for a settled outcome:
      handleOnLoad on success, handleError with the reason on failure. */
  function DeliverOne(k: nat, w: World, outcome: Signal): (r: World)
    ensures r.comps.Keys == w.comps.Keys && r.env.page == w.env.page
    ensures GrewWithin(w.env.engine.widgets.Keys, r.env.engine.widgets.Keys, w.env.engine.next, 1)
    ensures w.env.engine.next <= r.env.engine.next <= w.env.engine.next + 1
    ensures forall j :: j in w.comps && j != k ==> r.comps[j] == w.comps[j]
    ensures w.env.trace <= r.env.trace
    ensures k !in w.comps || outcome.Pending? ==> r == w
    ensures k in w.comps && outcome == Resolved ==>
      && IsReady(r.comps[k]) && r.comps[k].captchaId == Id(w.env.engine.next)
      && Live(r.env.engine, r.comps[k].captchaId)
      && r.comps[k] == ReadyWith(w.comps[k], w.env.engine.next)
      && r.env.engine == Render(w.env.engine, RenderParams(w.comps[k].props)).engine
      && r.env.trace == w.env.trace + [ApiRender(w.env.engine.next, RenderParams(w.comps[k].props))]
                                    + (if w.comps[k].props.onLoad then [OnLoad] else [])
    ensures k in w.comps && outcome.Rejected? ==>
      && r.comps[k] == w.comps[k]
      && r.env.trace == w.env.trace
           + (if IsReady(w.comps[k]) then [ApiReset(w.comps[k].captchaId)] else [])
           + (if w.comps[k].props.onError then [OnError(Str(outcome.reason))] else [])
      && r.env.engine == (if IsReady(w.comps[k]) then Reset(w.env.engine, w.comps[k].captchaId) else w.env.engine)
  {
    if k !in w.comps then w
    else
      var s := match outcome
        case Resolved => HandleOnLoad(w.comps[k], w.env)
        case Rejected(reason) => HandleError(w.comps[k], w.env, Str(reason))
        case Pending => Step(w.comps[k], w.env);
      World(s.env, w.comps[k := s.comp])
  }

  /** Runs the continuations in the order they were attached. */
  function DeliverAll(ws: seq<nat>, w: World, outcome: Signal): (r: World)
    ensures r.comps.Keys == w.comps.Keys && r.env.page == w.env.page
    ensures forall k :: k in w.comps && k !in ws ==> r.comps[k] == w.comps[k]
    ensures GrewWithin(w.env.engine.widgets.Keys, r.env.engine.widgets.Keys, w.env.engine.next, |ws|)
    ensures w.env.engine.next <= r.env.engine.next <= w.env.engine.next + |ws|
    ensures w.env.trace <= r.env.trace
    decreases |ws|
  {
    if |ws| == 0 then w else DeliverAll(ws[1..], DeliverOne(ws[0], w, outcome), outcome)
  }

  /** `w` with the list of waiters emptied, as the promise does once it
      has handed its continuations to the event loop. */
  function Detached(w: World): World {
    w.(env := w.env.(page := w.env.page.(waiters := [])))
  }

  /** Once the shared promise is settled, every attached continuation runs
      once and the list of waiters empties; a pending promise runs nothing.
      On success every waiter is released in order; on failure a waiter that
      was not API-ready only hears onError. */
  function RunContinuations(w: World): (r: World)
    ensures w.env.page.signal.Pending? ==> r == w
    ensures !w.env.page.signal.Pending? ==> r.env.page == w.env.page.(waiters := [])
    ensures r.comps.Keys == w.comps.Keys
    ensures w.env.trace <= r.env.trace
    ensures GrewWithin(w.env.engine.widgets.Keys, r.env.engine.widgets.Keys, w.env.engine.next, |w.env.page.waiters|)
    ensures forall k :: k in w.comps && k !in w.env.page.waiters ==> r.comps[k] == w.comps[k]
    ensures w.env.page.signal == Resolved && NoDuplicates(w.env.page.waiters)
            && (forall k :: k in w.env.page.waiters ==> k in w.comps) ==>
              && AllReleased(w.env.page.waiters, Detached(w), r)
              && (forall k :: k in w.env.page.waiters ==> IsReady(r.comps[k]) && Live(r.env.engine, r.comps[k].captchaId))
    ensures w.env.page.signal.Rejected? && (forall k :: k in w.env.page.waiters && k in w.comps ==> !w.comps[k].isApiReady) ==>
              && r.comps == w.comps && r.env.engine == w.env.engine
              && r.env.trace == w.env.trace + ErrorCallbacks(w.env.page.waiters, w.comps, w.env.page.signal.reason)
  {
    var p := w.env.page;
    if p.signal.Pending? then w
    else
      var r := DeliverAll(p.waiters, Detached(w), p.signal);
      assert p.signal == Resolved && NoDuplicates(p.waiters) && (forall k :: k in p.waiters ==> k in w.comps) ==>
        && AllReleased(p.waiters, Detached(w), r)
        && forall k :: k in p.waiters ==> IsReady(r.comps[k]) && Live(r.env.engine, r.comps[k].captchaId) by {
        if p.signal == Resolved && NoDuplicates(p.waiters) && (forall k :: k in p.waiters ==> k in w.comps) {
          ResolvedFanOut(p.waiters, Detached(w));
          ReleasedReady(p.waiters, w.comps, r.comps, w.env.engine, r.env.engine);
          ReleasedReadyKeys(p.waiters, r.comps, r.env.engine);
        }
      }
      assert p.signal.Rejected? && (forall k :: k in p.waiters && k in w.comps ==> !w.comps[k].isApiReady) ==>
        && r.comps == w.comps && r.env.engine == w.env.engine
        && r.env.trace == w.env.trace + ErrorCallbacks(p.waiters, w.comps, p.signal.reason) by {
        if p.signal.Rejected? && (forall k :: k in p.waiters && k in w.comps ==> !w.comps[k].isApiReady) {
          RejectedFanOut(p.waiters, Detached(w), p.signal.reason);
        }
      }
      r
  }

  /** Mounts controller `k`. */
  function MountAt(w: World, k: nat, gen: QueryParams -> string): World {
    if k !in w.comps then w
    else
      var s := ComponentDidMount(k, w.comps[k], w.env, gen);
      World(s.env, w.comps[k := s.comp])
  }

  /** The calls one success continuation makes: the render that gets id
      `id`, then onLoad if the controller supplied it. */
  function LoadEvents(id: nat, props: Props): seq<Event> {
    [ApiRender(id, RenderParams(props))] + (if props.onLoad then [OnLoad] else [])
  }

  /** The calls a successful load produces when the continuations of `ws`
      run in order and the engine hands out ids from `next` on; a key with
      no controller adds nothing and takes no id. */
  function LoadCallbacks(ws: seq<nat>, comps: map<nat, Component>, next: nat): seq<Event>
    decreases |ws|
  {
    if |ws| == 0 then []
    else if ws[0] in comps then LoadEvents(next, comps[ws[0]].props) + LoadCallbacks(ws[1..], comps, next + 1)
    else LoadCallbacks(ws[1..], comps, next)
  }

  /** LoadCallbacks reads nothing of a controller but its props. */
  lemma {:induction false} LoadCallbacksFrame(ws: seq<nat>, c1: map<nat, Component>, c2: map<nat, Component>, next: nat)
    requires c1.Keys == c2.Keys
    requires forall k :: k in c1 ==> c1[k].props == c2[k].props
    ensures LoadCallbacks(ws, c1, next) == LoadCallbacks(ws, c2, next)
    decreases |ws|
  {
    if |ws| > 0 {
      LoadCallbacksFrame(ws[1..], c1, c2, next + 1);
      LoadCallbacksFrame(ws[1..], c1, c2, next);
    }
  }

  /** Every waiter's render appears among the calls of a successful load, the
      i-th one with id `next + i` and the waiter's own parameters. */
  lemma {:induction false} LoadCallbacksRender(ws: seq<nat>, comps: map<nat, Component>, next: nat)
    requires forall k :: k in ws ==> k in comps
    ensures |LoadCallbacks(ws, comps, next)| >= |ws|
    ensures forall i :: 0 <= i < |ws| ==> ApiRender(next + i, RenderParams(comps[ws[i]].props)) in LoadCallbacks(ws, comps, next)
    decreases |ws|
  {
    if |ws| > 0 {
      LoadCallbacksRender(ws[1..], comps, next + 1);
      var tail := LoadCallbacks(ws[1..], comps, next + 1);
      var all := LoadCallbacks(ws, comps, next);
      assert all == LoadEvents(next, comps[ws[0]].props) + tail;
      forall i | 0 <= i < |ws|
        ensures ApiRender(next + i, RenderParams(comps[ws[i]].props)) in all
      {
        if i == 0 {
          assert all[0] == ApiRender(next, RenderParams(comps[ws[0]].props));
        } else {
          assert ws[i] == ws[1..][i - 1];
          assert ApiRender(next + 1 + (i - 1), RenderParams(comps[ws[1..][i - 1]].props)) in tail;
        }
      }
    }
  }

  /** One successful continuation renders its controller's widget with the
      engine's next id and changes no other controller. */
  lemma DeliverOneResolved(k: nat, w: World)
    requires k in w.comps
    ensures AllReleased([k], w, DeliverOne(k, w, Resolved))
  {
    var r := DeliverOne(k, w, Resolved);
    assert r.env.engine == Render(w.env.engine, RenderParams(w.comps[k].props)).engine;
    assert [k][1..] == [];
    assert LoadCallbacks([k], w.comps, w.env.engine.next) == LoadEvents(w.env.engine.next, w.comps[k].props);
  }

  /** `after` is `before` once the continuations of `ws` ran on a resolved
      promise: the i-th waiter is ready with id `base + i`, and no other
      controller changed. */
  predicate CompsReleased(ws: seq<nat>, before: map<nat, Component>, after: map<nat, Component>, base: nat) {
    && after.Keys == before.Keys
    && (forall k :: k in ws ==> k in before)
    && (forall i :: 0 <= i < |ws| ==> after[ws[i]] == ReadyWith(before[ws[i]], base + i))
    && (forall k :: k in before && k !in ws ==> after[k] == before[k])
  }

  /** `e1` is `e0` once the continuations of `ws` ran on a resolved promise:
      one id was handed out per waiter, the i-th one holding a fresh widget
      rendered from the i-th waiter's props, and every widget handed out
      before is kept. */
  predicate WidgetsReleased(ws: seq<nat>, comps: map<nat, Component>, e0: Engine, e1: Engine) {
    && e1.next == e0.next + |ws|
    && (forall i :: 0 <= i < |ws| && ws[i] in comps ==>
          && e0.next + i in e1.widgets
          && e1.widgets[e0.next + i] == Widget(RenderParams(comps[ws[i]].props), "", "", Undefined))
    && (forall n :: n in e0.widgets && n < e0.next ==> n in e1.widgets && e1.widgets[n] == e0.widgets[n])
  }

  /** `r` is `w` after the continuations of `ws` ran on a resolved promise:
      the controllers and the engine as above, the page unchanged, and the
      trace grown by exactly the renders and onLoad calls. */
  predicate AllReleased(ws: seq<nat>, w: World, r: World) {
    && r.env.page == w.env.page
    && CompsReleased(ws, w.comps, r.comps, w.env.engine.next)
    && WidgetsReleased(ws, w.comps, w.env.engine, r.env.engine)
    && r.env.trace == w.env.trace + LoadCallbacks(ws, w.comps, w.env.engine.next)
  }

  /** On success every waiting controller renders its own widget: the i-th
      continuation gets the i-th fresh id, so all ids differ, every waiter
      ends ready with a live widget built from its props, and no other
      controller changes. */
  lemma {:induction false} ResolvedFanOut(ws: seq<nat>, w: World)
    requires NoDuplicates(ws)
    requires forall k :: k in ws ==> k in w.comps
    ensures AllReleased(ws, w, DeliverAll(ws, w, Resolved))
    decreases |ws|
  {
    if |ws| > 0 {
      var w1 := DeliverOne(ws[0], w, Resolved);
      DeliverOneResolved(ws[0], w);
      var rest := ws[1..];
      assert forall i :: 0 <= i < |rest| ==> rest[i] == ws[i + 1];
      assert NoDuplicates(rest);
      assert ws[0] !in rest;
      ResolvedFanOut(rest, w1);
      var r := DeliverAll(rest, w1, Resolved);
      assert r == DeliverAll(ws, w, Resolved);
      ReleasedStep(ws, w, w1, r);
      ReleasedTraceStep(ws, w, w1, r);
    }
  }

  /** One induction step of ResolvedFanOut: the head waiter released in
      `mid`, then the rest released from `mid` to `r`. */
  lemma ReleasedStep(ws: seq<nat>, w: World, mid: World, r: World)
    requires |ws| > 0 && ws[0] !in ws[1..]
    requires AllReleased([ws[0]], w, mid)
    requires AllReleased(ws[1..], mid, r)
    ensures CompsReleased(ws, w.comps, r.comps, w.env.engine.next)
    ensures WidgetsReleased(ws, w.comps, w.env.engine, r.env.engine)
  {
    ComponentsStep(ws, w.comps, mid.comps, r.comps, w.env.engine, mid.env.engine, r.env.engine);
  }

  /** The page and trace half of one induction step of ResolvedFanOut. */
  lemma ReleasedTraceStep(ws: seq<nat>, w: World, mid: World, r: World)
    requires |ws| > 0 && ws[0] !in ws[1..]
    requires AllReleased([ws[0]], w, mid)
    requires AllReleased(ws[1..], mid, r)
    ensures r.env.page == w.env.page
    ensures r.env.trace == w.env.trace + LoadCallbacks(ws, w.comps, w.env.engine.next)
  {
    PropsKept(ws[0], w.comps, mid.comps, w.env.engine.next);
    TraceStep(ws, w.comps, mid.comps, w.env.trace, mid.env.trace, r.env.trace, w.env.engine.next, mid.env.engine.next);
  }

  /** A successful continuation keeps the props of every controller. */
  lemma PropsKept(k: nat, before: map<nat, Component>, after: map<nat, Component>, base: nat)
    requires CompsReleased([k], before, after, base)
    ensures forall j :: j in before ==> after[j].props == before[j].props
  {
    assert [k][0] == k;
  }

  /** The controller and engine halves of one induction step of
      ResolvedFanOut together. */
  lemma ComponentsStep(ws: seq<nat>, before: map<nat, Component>, mid: map<nat, Component>, after: map<nat, Component>,
                       e0: Engine, e1: Engine, e2: Engine)
    requires |ws| > 0 && ws[0] !in ws[1..]
    requires CompsReleased([ws[0]], before, mid, e0.next) && WidgetsReleased([ws[0]], before, e0, e1)
    requires CompsReleased(ws[1..], mid, after, e1.next) && WidgetsReleased(ws[1..], mid, e1, e2)
    ensures CompsReleased(ws, before, after, e0.next) && WidgetsReleased(ws, before, e0, e2)
    ensures forall k :: k in before ==> mid[k].props == before[k].props
  {
    FanOutStep(ws, before, mid, after, e0.next);
    WidgetsStep(ws, before, mid, e0, e1, e2);
  }

  /** The controller half of one induction step of ResolvedFanOut: the head
      waiter got id `base` in `mid`, and the rest got `base + 1` onwards;
      the props of every controller are kept. */
  lemma FanOutStep(ws: seq<nat>, before: map<nat, Component>, mid: map<nat, Component>, after: map<nat, Component>, base: nat)
    requires |ws| > 0 && ws[0] !in ws[1..]
    requires CompsReleased([ws[0]], before, mid, base)
    requires CompsReleased(ws[1..], mid, after, base + 1)
    ensures CompsReleased(ws, before, after, base)
    ensures forall k :: k in before ==> mid[k].props == before[k].props
  {
    assert [ws[0]][0] == ws[0];
    forall i | 0 <= i < |ws|
      ensures after[ws[i]] == ReadyWith(before[ws[i]], base + i)
    {
      if i > 0 {
        assert ws[i] == ws[1..][i - 1];
      }
    }
    forall k | k in ws
      ensures k in before
    {
      if k != ws[0] {
        assert k in ws[1..];
      }
    }
  }

  /** The engine half of one induction step of ResolvedFanOut: the head
      waiter's widget, rendered first, is still there at the end, next to
      the widgets of the rest. */
  lemma WidgetsStep(ws: seq<nat>, before: map<nat, Component>, mid: map<nat, Component>, e0: Engine, e1: Engine, e2: Engine)
    requires |ws| > 0
    requires mid.Keys == before.Keys
    requires forall k :: k in before ==> mid[k].props == before[k].props
    requires WidgetsReleased([ws[0]], before, e0, e1)
    requires WidgetsReleased(ws[1..], mid, e1, e2)
    ensures WidgetsReleased(ws, before, e0, e2)
  {
    assert [ws[0]][0] == ws[0];
    forall i | 0 <= i < |ws| && ws[i] in before
      ensures e0.next + i in e2.widgets
      ensures e2.widgets[e0.next + i] == Widget(RenderParams(before[ws[i]].props), "", "", Undefined)
    {
      if i > 0 {
        assert ws[i] == ws[1..][i - 1];
        assert e0.next + i == e1.next + (i - 1);
      } else {
        assert e0.next + 0 in e1.widgets;
      }
    }
  }

  /** The trace half of one induction step of ResolvedFanOut: the head
      waiter's calls, then those of the rest. */
  lemma TraceStep(ws: seq<nat>, before: map<nat, Component>, mid: map<nat, Component>,
                  t0: seq<Event>, t1: seq<Event>, t2: seq<Event>, base: nat, base1: nat)
    requires |ws| > 0 && ws[0] in before && base1 == base + 1
    requires mid.Keys == before.Keys
    requires forall k :: k in before ==> mid[k].props == before[k].props
    requires t1 == t0 + LoadCallbacks([ws[0]], before, base)
    requires t2 == t1 + LoadCallbacks(ws[1..], mid, base1)
    ensures t2 == t0 + LoadCallbacks(ws, before, base)
  {
    var head := LoadEvents(base, before[ws[0]].props);
    assert [ws[0]][1..] == [];
    assert LoadCallbacks([ws[0]], before, base) == head + [];
    LoadCallbacksFrame(ws[1..], mid, before, base + 1);
    var tail := LoadCallbacks(ws[1..], before, base + 1);
    assert LoadCallbacks(ws, before, base) == head + tail;
    assert t2 == (t0 + head) + tail;
  }

  /** Every controller released by a successful load is ready and its
      widget is live. */
  lemma ReleasedReady(ws: seq<nat>, before: map<nat, Component>, after: map<nat, Component>, e0: Engine, e1: Engine)
    requires CompsReleased(ws, before, after, e0.next) && WidgetsReleased(ws, before, e0, e1)
    ensures forall i :: 0 <= i < |ws| ==> ws[i] in after && IsReady(after[ws[i]]) && Live(e1, after[ws[i]].captchaId)
  {
    forall i | 0 <= i < |ws|
      ensures ws[i] in after && IsReady(after[ws[i]]) && Live(e1, after[ws[i]].captchaId)
    {
      assert ws[i] in before;
      assert after[ws[i]] == ReadyWith(before[ws[i]], e0.next + i);
    }
  }

  /** The same, by key rather than by position. */
  lemma ReleasedReadyKeys(ws: seq<nat>, after: map<nat, Component>, e1: Engine)
    requires forall i :: 0 <= i < |ws| ==> ws[i] in after && IsReady(after[ws[i]]) && Live(e1, after[ws[i]].captchaId)
    ensures forall k :: k in ws ==> k in after && IsReady(after[k]) && Live(e1, after[k].captchaId)
  {
    forall k | k in ws
      ensures k in after && IsReady(after[k]) && Live(e1, after[k].captchaId)
    {
      var i :| 0 <= i < |ws| && ws[i] == k;
    }
  }

  /** Consequently the controllers released by one successful load hold
      pairwise different widget ids. */
  lemma ResolvedIdsDistinct(ws: seq<nat>, w: World)
    requires NoDuplicates(ws)
    requires forall k :: k in ws ==> k in w.comps
    ensures forall k :: k in ws ==> k in DeliverAll(ws, w, Resolved).comps
    ensures var r := DeliverAll(ws, w, Resolved);
            forall i, j :: 0 <= i < j < |ws| ==> r.comps[ws[i]].captchaId != r.comps[ws[j]].captchaId
  {
    ResolvedFanOut(ws, w);
  }

  /** The error callbacks a failed load produces, one per waiting controller
      that supplied onError. */
  function ErrorCallbacks(ws: seq<nat>, comps: map<nat, Component>, reason: string): seq<Event>
    decreases |ws|
  {
    if |ws| == 0 then []
    else
      (if ws[0] in comps && comps[ws[0]].props.onError then [OnError(Str(reason))] else [])
      + ErrorCallbacks(ws[1..], comps, reason)
  }

  /** On failure no controller that was waiting for the script reaches the
      engine or changes state: the only effect is one onError call per
      waiting controller that supplied the callback. */
  lemma {:induction false} RejectedFanOut(ws: seq<nat>, w: World, reason: string)
    requires forall k :: k in ws && k in w.comps ==> !w.comps[k].isApiReady
    ensures var r := DeliverAll(ws, w, Rejected(reason));
            && r.comps == w.comps
            && r.env.page == w.env.page
            && r.env.engine == w.env.engine
            && r.env.trace == w.env.trace + ErrorCallbacks(ws, w.comps, reason)
    decreases |ws|
  {
    if |ws| > 0 {
      var w1 := DeliverOne(ws[0], w, Rejected(reason));
      DeliverOneRejected(ws[0], w, reason);
      RejectedFanOut(ws[1..], w1, reason);
      var r := DeliverAll(ws[1..], w1, Rejected(reason));
      assert r == DeliverAll(ws, w, Rejected(reason));
      QuietStep(ws, w, w1, r, reason);
    }
  }

  /** `r` is `w` after the continuations of `ws` ran on a promise rejected
      with `reason`: only the onError calls were added. */
  predicate Quiet(ws: seq<nat>, w: World, r: World, reason: string) {
    && r.comps == w.comps
    && r.env.page == w.env.page
    && r.env.engine == w.env.engine
    && r.env.trace == w.env.trace + ErrorCallbacks(ws, w.comps, reason)
  }

  /** One failure continuation of a controller that is not API-ready only
      calls its onError, if supplied. */
  lemma DeliverOneRejected(k: nat, w: World, reason: string)
    requires k in w.comps ==> !w.comps[k].isApiReady
    ensures Quiet([k], w, DeliverOne(k, w, Rejected(reason)), reason)
  {
    var r := DeliverOne(k, w, Rejected(reason));
    assert [k][1..] == [];
    if k in w.comps {
      assert r.env == HandleError(w.comps[k], w.env, Str(reason)).env;
    }
  }

  /** One induction step of RejectedFanOut. */
  lemma QuietStep(ws: seq<nat>, w: World, mid: World, r: World, reason: string)
    requires |ws| > 0
    requires Quiet([ws[0]], w, mid, reason)
    requires Quiet(ws[1..], mid, r, reason)
    ensures Quiet(ws, w, r, reason)
  {
    assert [ws[0]][1..] == [];
    assert ErrorCallbacks(ws, w.comps, reason) == ErrorCallbacks([ws[0]], w.comps, reason) + ErrorCallbacks(ws[1..], w.comps, reason);
  }

  /** ErrorCallbacks contains nothing but onError calls, and no more of them
      than there are waiters. */
  lemma {:induction false} ErrorCallbacksOnlyErrors(ws: seq<nat>, comps: map<nat, Component>, reason: string)
    ensures |ErrorCallbacks(ws, comps, reason)| <= |ws|
    ensures forall e :: e in ErrorCallbacks(ws, comps, reason) ==> e == OnError(Str(reason))
    decreases |ws|
  {
    if |ws| > 0 {
      ErrorCallbacksOnlyErrors(ws[1..], comps, reason);
    }
  }

  /** A fresh page and engine with controllers `ks`, each constructed from
      its own props, none mounted yet. */
  function FreshWorld(ks: seq<nat>, props: nat -> Props): World {
    var page := FreshPage({});
    World(Env(page, Empty(), []), map k | k in ks :: Construct(props(k), page))
  }

  /** The API script ran and the settled promise's continuations ran. */
  function AfterLoad(w: World): World {
    RunContinuations(w.(env := w.env.(page := ScriptLoaded(w.env.page))))
  }

  /** The script failed and the settled promise's continuations ran. */
  function AfterFailure(w: World): World {
    RunContinuations(w.(env := w.env.(page := ScriptFailed(w.env.page))))
  }

  /** A page with two controllers created before the API script was
      requested, both mounted. */
  function TwoWaiting(a: Props, b: Props, gen: QueryParams -> string): World {
    var page := FreshPage({});
    var w := World(Env(page, Empty(), []), map[1 := Construct(a, page), 2 := Construct(b, page)]);
    MountAt(MountAt(w, 1, gen), 2, gen)
  }

  /** Two controllers mounted before the script loads share one script
      element and one promise; when it resolves, both render, with
      different ids, and no second script appears. */
  lemma TwoWidgetsShareOneScript(a: Props, b: Props, gen: QueryParams -> string)
    ensures var w := TwoWaiting(a, b, gen);
            var r := AfterLoad(w);
            && |r.env.page.scripts| == 1
            && r.env.page.scripts[0] == ScriptFor(MountParamsOf(a), gen)
            && 1 in r.comps && 2 in r.comps
            && IsReady(r.comps[1]) && IsReady(r.comps[2])
            && r.comps[1].captchaId != r.comps[2].captchaId
            && Live(r.env.engine, r.comps[1].captchaId) && Live(r.env.engine, r.comps[2].captchaId)
  {
    TwoMounted(a, b, gen);
    var w := TwoWaiting(a, b, gen);
    var loaded := w.(env := w.env.(page := ScriptLoaded(w.env.page)));
    assert loaded.env.page.signal == Resolved;
    var r := RunContinuations(loaded);
    assert r.comps[[1, 2][0]] == ReadyWith(w.comps[[1, 2][0]], 0 + 0);
    assert r.comps[[1, 2][1]] == ReadyWith(w.comps[[1, 2][1]], 0 + 1);
  }

  /** The state TwoWaiting reaches: one script built from the first
      controller's props, both controllers waiting on the pending promise in
      mount order, and the engine and trace untouched. */
  lemma TwoMounted(a: Props, b: Props, gen: QueryParams -> string)
    ensures var w := TwoWaiting(a, b, gen);
            && w.env.page.waiters == [1, 2]
            && w.env.page.scripts == [ScriptFor(MountParamsOf(a), gen)]
            && w.env.page.signal == Pending && w.env.page.onloadRegistered
            && w.env.engine == Empty() && w.env.trace == []
            && w.comps.Keys == {1, 2}
            && w.comps[1].props == a && !w.comps[1].isApiReady
            && w.comps[2].props == b && !w.comps[2].isApiReady
  {
  }

  /** Mounts the controllers `ks` one after the other. */
  function MountAllAt(w: World, ks: seq<nat>, gen: QueryParams -> string): World
    decreases |ks|
  {
    if |ks| == 0 then w else MountAllAt(MountAt(w, ks[0], gen), ks[1..], gen)
  }

  /** `r` is `w` after the controllers `ks`, none of them ready or having
      requested the script, were mounted: each is now waiting on the shared
      promise in mount order, at most one script was appended (built from
      the first controller's props), and neither the engine, the trace, the
      promise nor any other controller changed. */
  predicate AllWaiting(ks: seq<nat>, w: World, r: World, gen: QueryParams -> string)
    requires forall k :: k in ks ==> k in w.comps
  {
    && r.comps.Keys == w.comps.Keys
    && r.env.engine == w.env.engine && r.env.trace == w.env.trace
    && r.env.page.signal == w.env.page.signal && r.env.page.apiPresent == w.env.page.apiPresent
    && r.env.page.waiters == w.env.page.waiters + ks
    && w.env.page.ids <= r.env.page.ids
    && (|ks| > 0 ==> ScriptId in r.env.page.ids)
    && (LoaderOk(w.env.page) ==> LoaderOk(r.env.page))
    && (ScriptId in w.env.page.ids ==> r.env.page.scripts == w.env.page.scripts)
    && (ScriptId !in w.env.page.ids && |ks| > 0 ==>
          r.env.page.scripts == w.env.page.scripts + [ScriptFor(MountParamsOf(w.comps[ks[0]].props), gen)])
    && (forall k :: k in ks ==> r.comps[k] == w.comps[k].(apiScriptRequested := true))
    && (forall k :: k in w.comps && k !in ks ==> r.comps[k] == w.comps[k])
  }

  /** Mounting many controllers before the script loads makes one request. */
  lemma {:induction false} MountAllWaits(w: World, ks: seq<nat>, gen: QueryParams -> string)
    requires NoDuplicates(ks)
    requires forall k :: k in ks ==> k in w.comps && !w.comps[k].isApiReady && !w.comps[k].apiScriptRequested
    ensures AllWaiting(ks, w, MountAllAt(w, ks, gen), gen)
    decreases |ks|
  {
    if |ks| > 0 {
      var k := ks[0];
      var w1 := MountAt(w, k, gen);
      MountOneWaits(w, k, gen);
      var rest := ks[1..];
      assert forall i :: 0 <= i < |rest| ==> rest[i] == ks[i + 1];
      assert NoDuplicates(rest);
      assert k !in rest;
      MountAllWaits(w1, rest, gen);
      var r := MountAllAt(w1, rest, gen);
      assert r == MountAllAt(w, ks, gen);
      WaitingStep(ks, w, w1, r, gen);
    }
  }

  /** Mounting one controller that is not ready and has not requested the
      script attaches it to the shared promise. */
  lemma MountOneWaits(w: World, k: nat, gen: QueryParams -> string)
    requires k in w.comps && !w.comps[k].isApiReady && !w.comps[k].apiScriptRequested
    ensures AllWaiting([k], w, MountAt(w, k, gen), gen)
  {
  }

  /** One induction step of MountAllWaits: the head controller mounted in
      `mid`, then the rest mounted from `mid` to `r`. */
  lemma WaitingStep(ks: seq<nat>, w: World, mid: World, r: World, gen: QueryParams -> string)
    requires |ks| > 0 && ks[0] !in ks[1..]
    requires forall k :: k in ks ==> k in w.comps
    requires AllWaiting([ks[0]], w, mid, gen)
    requires forall k :: k in ks[1..] ==> k in mid.comps
    requires AllWaiting(ks[1..], mid, r, gen)
    ensures AllWaiting(ks, w, r, gen)
  {
    assert ks == [ks[0]] + ks[1..];
    assert r.comps[ks[0]] == mid.comps[ks[0]];
  }

  /** Mounting every controller of a fresh world makes one script request
      and attaches every controller to the pending promise. */
  lemma ManyWaiting(ks: seq<nat>, props: nat -> Props, gen: QueryParams -> string)
    requires |ks| > 0 && NoDuplicates(ks)
    ensures var m := MountAllAt(FreshWorld(ks, props), ks, gen);
            && m.env.page.scripts == [ScriptFor(MountParamsOf(props(ks[0])), gen)]
            && m.env.page.waiters == ks && m.env.page.signal == Pending && LoaderOk(m.env.page)
            && m.env.engine == Empty() && m.env.trace == []
            && (forall k :: k in ks ==> k in m.comps)
  {
    var w := FreshWorld(ks, props);
    MountAllWaits(w, ks, gen);
  }

  /** Any number of controllers created and mounted on a fresh page before
      the script loads: one script element is appended and every controller
      waits on the one promise; when the script loads, every controller
      renders a live widget of its own, the i-th one getting id `i`. */
  lemma ManyWidgetsShareOneScript(ks: seq<nat>, props: nat -> Props, gen: QueryParams -> string)
    requires |ks| > 0 && NoDuplicates(ks)
    ensures var m := MountAllAt(FreshWorld(ks, props), ks, gen);
            var r := AfterLoad(m);
            && m.env.page.scripts == [ScriptFor(MountParamsOf(props(ks[0])), gen)]
            && m.env.page.waiters == ks
            && r.env.page.waiters == []
            && (forall k :: k in ks ==> k in r.comps)
            && (forall i :: 0 <= i < |ks| ==>
                  IsReady(r.comps[ks[i]]) && r.comps[ks[i]].captchaId == Id(i) && Live(r.env.engine, r.comps[ks[i]].captchaId))
  {
    ManyWaiting(ks, props, gen);
    var m := MountAllAt(FreshWorld(ks, props), ks, gen);
    var loaded := m.(env := m.env.(page := ScriptLoaded(m.env.page)));
    assert loaded.env.page.signal == Resolved;
    ReleasedFromZero(ks, Detached(loaded), RunContinuations(loaded));
  }

  /** Released from an engine that had handed out no id yet, the i-th
      waiter holds id `i`. */
  lemma ReleasedFromZero(ks: seq<nat>, w: World, r: World)
    requires AllReleased(ks, w, r) && w.env.engine.next == 0
    ensures r.env.page.waiters == w.env.page.waiters
    ensures forall k :: k in ks ==> k in r.comps
    ensures forall i :: 0 <= i < |ks| ==>
              IsReady(r.comps[ks[i]]) && r.comps[ks[i]].captchaId == Id(i) && Live(r.env.engine, r.comps[ks[i]].captchaId)
  {
    ReleasedReady(ks, w.comps, r.comps, w.env.engine, r.env.engine);
    ReleasedReadyKeys(ks, r.comps, r.env.engine);
    forall i | 0 <= i < |ks|
      ensures r.comps[ks[i]].captchaId == Id(i)
    {
      assert r.comps[ks[i]] == ReadyWith(w.comps[ks[i]], w.env.engine.next + i);
    }
  }

  /** Two controllers mounted before the script fails to load: neither
      renders, and each one with an onError callback hears about the
      failure exactly once. */
  lemma TwoWidgetsLoadFailure(a: Props, b: Props, gen: QueryParams -> string)
    requires a.onError && b.onError
    ensures var r := AfterFailure(TwoWaiting(a, b, gen));
            && 1 in r.comps && 2 in r.comps
            && !IsReady(r.comps[1]) && !IsReady(r.comps[2])
            && r.env.engine == Empty()
            && r.env.trace == [OnError(Str(ScriptError)), OnError(Str(ScriptError))]
  {
    TwoMounted(a, b, gen);
    var w := TwoWaiting(a, b, gen);
    var failed := w.(env := w.env.(page := ScriptFailed(w.env.page)));
    assert failed.env.page.signal == Rejected(ScriptError);
    assert ErrorCallbacks([1, 2], w.comps, ScriptError) == [OnError(Str(ScriptError)), OnError(Str(ScriptError))] by {
      assert [1, 2][1..] == [2];
    }
  }
}

=== FILE: wrappers.dfy ===
/** Optional value shared by the other modules. */
module Wrappers {

  /** An optional value. For a string-valued option of the component,
      None stands for an absent (undefined or null) property. */
  datatype Option<+T> = None | Some(value: T)
}
